=== FILE: README.md ===
# Nikumaroro time-lapse builder, modelled in Dafny

This project models the decision logic of two Python scripts. Together they
build a satellite time-lapse of the "Taraia object" site on Nikumaroro
Island.

- `scripts/getdata_nikumaroro.py` is the yearly downloader. For every year
  from 2013 to 2024 it picks the least cloudy image. From 2015 it tries
  Sentinel-2 first and falls back to Landsat 8; before 2015 it uses Landsat 8
  only. It downloads a 1024-pixel thumbnail and keeps it only if the response
  is a real image. Unless a collection query raises, which ends the run,
  each year ends up either as a manifest entry or as a failed year. When at
  least one year was kept, the script then writes `viewer_config.json`: the
  entries sorted by date, their count, and the first and last dates; when
  none was, it writes no configuration.
- `scripts/nikumaroro_analysis.py` is the analysis pipeline. It downloads up
  to 50 Sentinel-2 dates and adds the static map tiles. It then aligns every
  frame to the first loaded frame's size. When every aligned entry is keyed
  the same way (all by timestamp or all by date), it writes a viewer
  configuration sorted by that key. A saved Sentinel-2 shot (keyed by its
  integer timestamp) beside a static tile (keyed by the date "current")
  makes the sort raise `TypeError`, and nothing is written.

Earth Engine, HTTP, PIL and the file system become parameters:

- a `Catalog` lists each collection's images;
- a `Network` or `Thumbs` function returns the response for a request;
- `Files` maps file names to bytes;
- a `Disk` maps the files present at alignment time to their pixel size.

Modules:

| module | file | models |
|---|---|---|
| `Wrappers` | wrappers.dfy | `Option` (a missing dictionary key) |
| `Strings` | strings.dfy | Python string order, `in` on strings, `str.replace`, zero-padded decimals |
| `Dates` | dates.dfy | `YYYY-MM-dd` dates and their eight-digit form |
| `StableSort` | stable_sort.dfy | `list.sort(key=…)`: a stable sort on int or str keys |
| `Records` | records.dfy | the per-image dictionaries |
| `Download` | download.dfy | `download_image` |
| `Selection` | selection.dfy | `get_best_sentinel2`, `get_best_landsat8`, the fallback order, `S2_VIS`/`L8_VIS`, the file names |
| `Manifest` | manifest.dfy | `write_viewer_config`, `create_viewer_config` |
| `TimeSeries` | time_series.dfy | `main` of the yearly downloader |
| `Alignment` | align.dfy | `align_images`, as written and corrected |
| `Sentinel2Series` | sentinel2_series.dfy | `download_sentinel2_images` |
| `Analysis` | analysis.dfy | `main` of the analysis script |

`align_images` takes the first loaded frame's size as the reference, so
frames of 800×600, 1024×1024 and 1024×1024 yield three 800×600 frames, the
last two resized (`Alignment.AlignKeepsFirstSize`).

The yearly downloader is modelled with its date filter as written
(`Selection.Window.AsWritten`), which stops before 31 December; every
selection lemma holds for either window, and the calendar-year window is the
corrected instance of the first finding below. The analysis pipeline is
modelled with `align_images` as written (`Alignment.AlignAsWritten`); on the
directories the script's own downloads produce, where every recorded entry's
file exists, it agrees with the corrected pairing.

## Model

| member | source | states |
|---|---|---|
| Strings.StrLeTotal | scripts/getdata_nikumaroro.py:182 | any two date strings are comparable, so sorting by the `date` key is well defined |
| Strings.StrLeTransitive | scripts/getdata_nikumaroro.py:182 | Python's string order used by the date sort is transitive |
| Strings.StrLeAntisymmetric | scripts/getdata_nikumaroro.py:182 | two strings that are each at most the other are equal |
| Strings.Contains | scripts/getdata_nikumaroro.py:159 | `"image" in content_type` holds exactly when the marker occurs at some position of the header |
| Manifest.DateKey | scripts/getdata_nikumaroro.py:182 | the yearly sort key is the entry's `date` string |
| Manifest.ViewerKey | scripts/nikumaroro_analysis.py:263 | the analysis sort key is the integer timestamp exactly when one is present and non-zero, otherwise the `date` string, or "" without one |
| Strings.RemoveChar | scripts/nikumaroro_analysis.py:117 | `replace('-', '')` leaves no dash and keeps every other character |
| Strings.PadDigitsOrder | scripts/getdata_nikumaroro.py:93 | zero-padded numbers of one width compare as strings exactly as they compare as numbers, and are equal only for equal numbers |
| Strings.DecimalIsPadDigits | scripts/getdata_nikumaroro.py:238 | `str(n)` of a four-digit number is its four-digit zero-padded numeral, so `PadDigitsOrder` pins its digits to the value |
| Strings.DecimalInjective | scripts/getdata_nikumaroro.py:238 | distinct years print as distinct decimal strings |
| Dates.Format | scripts/getdata_nikumaroro.py:93 | a formatted date is ten characters with dashes at positions 4 and 7 |
| Dates.FormatOrder | scripts/getdata_nikumaroro.py:182 | sorting `YYYY-MM-dd` strings orders the dates on the calendar, and equal strings mean equal dates |
| Dates.FormatWithoutDashes | scripts/nikumaroro_analysis.py:117 | removing the dashes of `YYYY-MM-dd` gives the eight-digit `YYYYMMDD` form |
| Dates.CompactInjective | scripts/nikumaroro_analysis.py:117 | distinct dates have distinct `YYYYMMDD` forms |
| StableSort.KeyLeTotal | scripts/nikumaroro_analysis.py:263 | the sort keys (int timestamps or str dates) are totally ordered |
| StableSort.KeyLeTransitive | scripts/nikumaroro_analysis.py:263 | the key order is transitive |
| StableSort.SortBy | scripts/getdata_nikumaroro.py:182 | the sorted list is ordered by key, is a permutation of the input, and keeps entries with equal keys in input order |
| StableSort.SortBySorted | scripts/getdata_nikumaroro.py:182 | sorting a list already ordered by key leaves it unchanged |
| Manifest.WriteViewerConfig | scripts/getdata_nikumaroro.py:181-200 | the `images` are a permutation of the input ordered by date, with equal dates in input order; `total_images` is the input length; the date range is the first and last date, or "unknown"/"unknown" when empty, and it bounds every input date |
| Manifest.WriteViewerConfigChronological | scripts/getdata_nikumaroro.py:181-182 | entries already in strictly increasing date order are listed unchanged by the sort |
| Manifest.DateRangeBounds | scripts/getdata_nikumaroro.py:195-198 | the first and last dates of the sorted list bound every entry's date |
| Manifest.CreateViewerConfig | scripts/nikumaroro_analysis.py:257-281 | the `images` are a permutation ordered by timestamp-or-date, stable on equal keys; `total_images` is the length; the date range is the first and last entry's `date`, "unknown" where absent |
| Download.Check | scripts/getdata_nikumaroro.py:148-175 | a response is accepted exactly when nothing raised, the status is 200, the Content-Type contains "image" and the body decodes; otherwise it names the first failed check: a transport error, then a bad status or type, then an undecodable body, each exactly when the earlier checks passed |
| Download.DownloadImage | scripts/getdata_nikumaroro.py:143-175 | returns true exactly for an accepted response; only then is the file written, with the response body, and no other file changes |
| Download.DownloadIdempotent | scripts/getdata_nikumaroro.py:167-171 | downloading the same response twice to the same name leaves what one download leaves |
| Download.HtmlPageRejected | scripts/getdata_nikumaroro.py:157-161 | a `text/html` page with status 200 is refused as a bad response |
| Download.TruncatedPngRejected | scripts/getdata_nikumaroro.py:163-165 | an `image/png` response with status 200 whose body does not decode is refused |
| Selection.WindowAsWrittenDropsLastDay | scripts/getdata_nikumaroro.py:83 | the date filter as written (`InWindowAsWritten`) covers exactly the calendar year minus 31 December |
| Selection.Query | scripts/getdata_nikumaroro.py:80-86 | the collection query keeps exactly the catalog images inside the date window and under 30 % cloud |
| Selection.Pick | scripts/getdata_nikumaroro.py:80-96 | for either window: no image exactly when no image of the source lies in the window under 30 % cloud; otherwise such an image, dated in the year, at most as cloudy as every other one |
| Selection.PickBestAsWritten | scripts/getdata_nikumaroro.py:80-96 | with the filter as written: no image exactly when no clear image lies before 31 December of the year; otherwise such an image, at most as cloudy as every other one in that window |
| Selection.LastDayImageMissed | scripts/getdata_nikumaroro.py:104-114 | a year whose only clear image is from 31 December is lost as written and found with the calendar-year filter |
| Selection.LeastCloudy | scripts/getdata_nikumaroro.py:85-92 | the image picked belongs to the list and is at most as cloudy as every image in it |
| Selection.PickBest | scripts/getdata_nikumaroro.py:80-96 | corrected, over the whole calendar year: no image exactly when no image of that source and year is under 30 % cloud; otherwise one such image, at most as cloudy as every other one |
| Selection.LastDayImageDisplaced | scripts/getdata_nikumaroro.py:83 | with a 1 % image on 31 December 2014 and a 20 % one on 1 June, the script as written picks the June image and the calendar-year window picks the December one |
| Selection.Priority | scripts/getdata_nikumaroro.py:232-246 | Landsat 8 is always tried; Sentinel-2 is tried exactly from 2015 on, and then first |
| Selection.TryInOrder | scripts/getdata_nikumaroro.py:232-246 | for either window: the sources queried are a prefix of the order; the chosen source is the last one queried and gave its best image; every earlier one gave nothing; with no coverage all sources were queried |
| Selection.SelectYear | scripts/getdata_nikumaroro.py:232-246 | the year's choice comes from a source it may use and is that source's pick; with no coverage every allowed source was queried; every source queried before the winner had nothing |
| Selection.SelectAsBranches | scripts/getdata_nikumaroro.py:233-246 | the nested branches: Sentinel-2 only from 2015 on, Landsat 8 only when Sentinel-2 had nothing, no coverage exactly when neither had an image |
| Selection.SelectYearIsBranches | scripts/getdata_nikumaroro.py:233-246 | the ordered try-list chooses exactly what the nested branches of `main` choose |
| Selection.EarlyYearsLandsatOnly | scripts/getdata_nikumaroro.py:233-246 | before 2015, Sentinel-2 is never queried and only Landsat 8 can be chosen |
| Selection.SentinelShortCircuit | scripts/getdata_nikumaroro.py:233-241 | from 2015 on, when Sentinel-2 has an image, it is chosen and Landsat 8 is not queried |
| Selection.NoCoverageIff | scripts/getdata_nikumaroro.py:248-251 | for either window, a year has no imagery exactly when no source it may use has an image inside the window under 30 % cloud |
| Selection.SelectedQualifies | scripts/getdata_nikumaroro.py:233-246 | a chosen image belongs to the chosen source's collection, lies inside the window and the year, and is under 30 % cloud |
| Selection.Vis | scripts/getdata_nikumaroro.py:126-140 | Sentinel-2 renders bands B4/B3/B2 over 0..3000, Landsat 8 SR_B4/SR_B3/SR_B2 over 7000..30000, both with gamma 1.4 |
| Selection.Label | scripts/getdata_nikumaroro.py:232-246 | the manifest label is "Sentinel-2" exactly for Sentinel-2 and "Landsat 8" exactly for Landsat 8 |
| Selection.Filename | scripts/getdata_nikumaroro.py:238-246 | the file name is the source's prefix, then decimal digits (at least two for the years of the loop), then `.png` |
| Selection.FilenameOfLoopYear | scripts/getdata_nikumaroro.py:238-246 | for a four-digit year the file name is the source's prefix, the year's four digits, then `.png` |
| Selection.FilenameInjective | scripts/getdata_nikumaroro.py:238-246 | two (source, year) pairs share a file name only when they are equal, so no year overwrites another's image |
| TimeSeries.Entry | scripts/getdata_nikumaroro.py:256-265 | the entry carries the image's formatted date, the year's file as both file and aligned file, the source label, 1024×1024, and no timestamp |
| TimeSeries.ProcessYear | scripts/getdata_nikumaroro.py:227-267 | a year is skipped for no imagery exactly when nothing was chosen, kept exactly when the chosen image's download is accepted, and otherwise skipped with the reason the download check gives |
| TimeSeries.LastDayYearLost | scripts/getdata_nikumaroro.py:104-114 | a Landsat 8 year whose only clear image is from 31 December is failed for lack of imagery as written, and kept with the calendar-year window when the download is accepted |
| TimeSeries.YearWriteIsDownload | scripts/getdata_nikumaroro.py:253-267 | one iteration's write is exactly `download_image` on the chosen image's response and the year's file name, and the year is kept exactly when `download_image` returns true |
| TimeSeries.ProcessYearOutcome | scripts/getdata_nikumaroro.py:227-267 | a year is skipped for no imagery exactly when nothing was chosen; it is kept exactly when an image was chosen and its download accepted, and the entry then carries that image's date (inside the year), the year's file name, the source label, the downloaded bytes, 1024×1024 and `aligned_filename == filename` |
| TimeSeries.KeptYearsMembers | scripts/getdata_nikumaroro.py:227-267 | the kept years are exactly the loop years whose iteration kept an image |
| TimeSeries.KeptYearsAscending | scripts/getdata_nikumaroro.py:227-267 | kept years come out in strictly increasing order |
| TimeSeries.KeptInfosOfYears | scripts/getdata_nikumaroro.py:256-265 | the i-th entry of `images_info` is the entry of the i-th kept year |
| TimeSeries.SkippedYearsMembers | scripts/getdata_nikumaroro.py:248-267 | `failed_years` holds exactly the loop years whose iteration was skipped |
| TimeSeries.SkippedYearsAscending | scripts/getdata_nikumaroro.py:248-267 | `failed_years` is strictly increasing |
| TimeSeries.KeptPlusSkipped | scripts/getdata_nikumaroro.py:227-267 | every year adds exactly one entry or one failed year |
| TimeSeries.WrittenFilesFacts | scripts/getdata_nikumaroro.py:253-258 | earlier files survive, every entry's file was written, and every new file belongs to an entry |
| TimeSeries.KeptFilesWritten | scripts/getdata_nikumaroro.py:253-258 | every entry of `images_info` names a file the loop wrote |
| TimeSeries.KeptInfosChronological | scripts/getdata_nikumaroro.py:181-182 | the loop's entries all have dates, in strictly increasing order, so the manifest's date sort leaves them as they are |
| TimeSeries.KeptInfosGeometry | scripts/getdata_nikumaroro.py:258-265 | every entry is 1024×1024 and is its own aligned file |
| TimeSeries.YearOutcomesWellFormed | scripts/getdata_nikumaroro.py:256-265 | every kept year's entry is dated inside that year and has the fixed geometry |
| TimeSeries.KeptInfosExactly | scripts/getdata_nikumaroro.py:227-267 | every kept year's entry is in `images_info`, and every entry there belongs to some kept year |
| TimeSeries.CollectYears | scripts/getdata_nikumaroro.py:224-267 | the loop leaves `images_info`, `failed_years` and the output directory as the year-by-year definitions give them |
| TimeSeries.DownloadYears | scripts/getdata_nikumaroro.py:224-267 | every year is either failed or kept, never both; entries correspond exactly to kept years, come out in strictly increasing date order (so sorting by date leaves them unchanged), failed years ascend, have the fixed geometry and name written files; entries plus failed years number the years |
| TimeSeries.DownloadAllYears | scripts/getdata_nikumaroro.py:224-267 | the loop over 2013..2024 with the date filter as written: failed years are exactly those whose iteration skips, ascending; entries correspond exactly to kept iterations, in strictly increasing date order, with the fixed geometry and a written file; twelve years are accounted for |
| TimeSeries.RunYears | scripts/getdata_nikumaroro.py:213-277 | the whole script, with the date filter as written: the failed years are exactly those with no imagery or a refused download, kept years' entries make up `images_info`, twelve years are accounted for, the failed years ascend, the entries are in strictly increasing date order, and a configuration is written exactly when an image was kept, listing the entries in that order with their count and first and last dates |
| Alignment.Loaded | scripts/nikumaroro_analysis.py:216-222 | the loaded images are exactly the entries whose file exists, never more than the input |
| Alignment.LoadedAppend | scripts/nikumaroro_analysis.py:216-222 | loading distributes over concatenation, so load order is input order |
| Alignment.LoadedAll | scripts/nikumaroro_analysis.py:216-222 | when every file exists, every entry loads, in order |
| Alignment.LoadedDims | scripts/nikumaroro_analysis.py:216-222 | the k-th loaded size is the size of the k-th loaded entry's file |
| Alignment.Normalise | scripts/nikumaroro_analysis.py:227-247 | every frame gets the first frame's size, a frame is resized exactly when its size differs, and each record keeps its entry's keys and adds `aligned_` + its file name |
| Alignment.AlignAsWritten | scripts/nikumaroro_analysis.py:206-251 | as written: empty exactly when no file exists; one record per loaded image, the i-th one built from the i-th input entry; every frame has the first loaded image's size |
| Alignment.Align | scripts/nikumaroro_analysis.py:206-251 | corrected: empty exactly when no file exists; the records are the loaded entries in order, each naming an existing file, describing the frame saved beside it, resized exactly when that file's size differs from the reference, all sharing the first loaded image's size |
| Alignment.AlignAsWrittenWhenAllExist | scripts/nikumaroro_analysis.py:216-247 | when every file exists the as-written pairing is the corrected one |
| Alignment.AlignAsWrittenMislabels | scripts/nikumaroro_analysis.py:239-247 | with a missing first file, the script records the second file's frame under the first entry, whose file does not exist |
| Alignment.AlignThree | scripts/nikumaroro_analysis.py:227-247 | three present frames all take the first frame's size, each saved under `aligned_` plus its own name, the second and third marked resized exactly when their size differs |
| Alignment.AlignKeepsFirstSize | scripts/nikumaroro_analysis.py:227-236 | 800×600, 1024×1024, 1024×1024 give three 800×600 frames, the last two resized |
| Alignment.AlignUniformUntouched | scripts/nikumaroro_analysis.py:233-236 | when all files share one size, no frame is resized |
| Sentinel2Series.SeriesFilenameDigits | scripts/nikumaroro_analysis.py:117 | the file name (`SeriesFilename`) is `sentinel2_` + `YYYYMMDD` + `.png`, and distinct dates give distinct names |
| Sentinel2Series.SeriesEntry | scripts/nikumaroro_analysis.py:121-126 | the entry of a saved shot has its formatted date, its timestamp, the file `sentinel2_YYYYMMDD.png` and the label Sentinel-2, and no other key |
| Sentinel2Series.Saves | scripts/nikumaroro_analysis.py:111-116 | every response the yearly downloader accepts is also saved by the series loop |
| Sentinel2Series.HtmlPageSaved | scripts/nikumaroro_analysis.py:116 | a 200 HTML page is saved by this loop although the yearly downloader would refuse it |
| Sentinel2Series.SavedShots | scripts/nikumaroro_analysis.py:111-116 | the saved shots are exactly the shots whose fetch raised nothing and answered 200, never more than the shots |
| Sentinel2Series.FetchAll | scripts/nikumaroro_analysis.py:94-130 | the entries are, in order, the entries of the saved shots, one per saved shot |
| Sentinel2Series.FetchAllEntries | scripts/nikumaroro_analysis.py:111-126 | every saved shot has an entry, and every entry belongs to a saved shot |
| Sentinel2Series.FetchAllFileNames | scripts/nikumaroro_analysis.py:116-119 | after the loop the directory holds the earlier files plus one file per calendar day with a saved shot, shots of one day sharing it; each such file holds the response body of the day's last saved shot |
| Sentinel2Series.FetchAllContents | scripts/nikumaroro_analysis.py:116-119 | each day's file holds the response body of the last saved shot of that day, earlier same-day bodies being overwritten |
| Sentinel2Series.FetchAllKeepsOthers | scripts/nikumaroro_analysis.py:116-119 | a file that no saved shot is named after keeps its contents |
| Sentinel2Series.FirstShots | scripts/nikumaroro_analysis.py:94 | the loop visits the first 50 shots in catalog order, or all of them when there are fewer |
| Sentinel2Series.DownloadSentinel2 | scripts/nikumaroro_analysis.py:94-132 | at most 50 entries: in shot order, the entries of the saved shots among the first 50; each such shot is recorded, each entry comes from one, and each is dated, timestamped, labelled Sentinel-2 and names a written file |
| Sentinel2Series.DownloadSentinel2Contents | scripts/nikumaroro_analysis.py:94-132 | after the whole download, each day's file holds the body of the last shot of that day saved among the first 50 |
| Sentinel2Series.SameDaySameFile | scripts/nikumaroro_analysis.py:117-119 | two shots share a file name exactly when they share a calendar day |
| Analysis.Gathered | scripts/nikumaroro_analysis.py:303-321 | `all_images` is the Sentinel-2 download's entries, in their order, followed by the static tiles; without Earth Engine only the tiles remain |
| Analysis.AlignedKeys | scripts/nikumaroro_analysis.py:239-247 | the i-th aligned record keeps the sort key of the i-th input entry |
| Analysis.AlignedRecordsUniform | scripts/nikumaroro_analysis.py:242-247 | records that share one size, as the aligned records do, still share it after the sort reorders them |
| Analysis.AlignAndConfigure | scripts/nikumaroro_analysis.py:323-341 | with `align_images` as written: nothing is aligned exactly when no entry's file exists; the sort raises exactly when the first entries, one per loaded file, mix timestamps and dates; otherwise the configuration is `create_viewer_config` of the aligned records (stably sorted by key, counted, its date range the first and last `date` or "unknown"), all with one size |
| Analysis.AllOnDiskConfigured | scripts/nikumaroro_analysis.py:206-263 | when every entry's file exists, the sort raises exactly when the entries mix key kinds, and the configuration holds the corrected alignment's records, each naming an existing file |
| Analysis.MixedKeysRaise | scripts/nikumaroro_analysis.py:263 | with every file present, an entry keyed by timestamp together with one keyed by date makes the script raise |
| Analysis.AnalysisRun | scripts/nikumaroro_analysis.py:295-341 | the run is alignment and configuration of the gathered entries; an existing static tile always gets past alignment; without Earth Engine the run depends on the tiles alone |
| Analysis.GatheredOnDisk | scripts/nikumaroro_analysis.py:116-126 | when the file of every saved shot among the first 50 and of every tile is present, every gathered entry's file is present |
| Analysis.SeriesBesideTileRaises | scripts/nikumaroro_analysis.py:263-321 | once one of the first 50 Sentinel-2 shots is saved and a static tile is downloaded, with their files present, the run ends in the `TypeError` |

## Left out

- Earth Engine initialisation and authentication, `get_roi`, `getThumbURL` and the collection queries are foreign calls. They become the `Catalog`, `Network` and `Thumbs` parameters.
- HTTP requests and their timeouts become the `raises` flag of a response.
- File writes are entries in `Files`; JSON output and console printing are not modelled.
- `datetime.now()` is I/O. It becomes the `generated` parameter.
- PIL decoding and `verify()` are left out; a response has a `decodes` flag instead.
- Lanczos resampling is left out. A frame records only its size and whether it was resized.
- `get_bbox` and `lat_lon_to_tile` are floating-point and trigonometric arithmetic, and are left out.
- `download_static_satellite_tiles` is a network loop. Its result is the `tiles` parameter.
- The Sentinel Hub stub and the matplotlib preview are not part of this model.
- `initialize_ee` can stop the yearly script before the loop, when `GOOGLE_PROJECT_ID` is unset. That is configuration handling, not selection logic, so the model starts at the loop.
- Alignment.AlignAsWritten: like `Alignment.Align`, does not model `Image.open` raising on a file that exists but does not decode, such as an HTML page the series loop saved.
- Alignment.Align: does not model `Image.open` raising on a file that exists but does not decode. Every file in the `Disk` is taken to decode to its size.
- Analysis.AnalysisRun: the `Disk` is a separate parameter. It is not derived from the files the downloads wrote, because pixel sizes come from decoding. The statements that need every recorded entry's file to exist (`Analysis.AllOnDiskConfigured`, `Analysis.MixedKeysRaise`, `Analysis.SeriesBesideTileRaises`) take that as a hypothesis; the script's downloads establish it, since each entry is recorded only after its file is written.
- Analysis.SeriesBesideTileRaises: requires the saved shot's timestamp to be non-zero. A shot taken at the epoch would be keyed by its date string, like the tiles.
- Manifest.CreateViewerConfig: requires the entries to be all keyed by timestamp or all by date. Python's sort raises `TypeError` on a mix; the pipeline (`Analysis.AlignAndConfigure`) models that outcome as `MixedKeys` before calling it. Sentinel-2 entries sort by integer timestamp and static tiles by the date "current", so with both present the script ends there (`Analysis.SeriesBesideTileRaises`).
- TimeSeries.RunYears: a collection query that raises (`size().getInfo()` inside `get_best_*`) is outside any `try` and ends the whole run without writing `viewer_config.json`. The `Catalog` is total, so the model's every-year-kept-or-failed partition holds only for runs whose queries all answer.
- Selection.Pick: among equally cloudy images it picks the first in catalog order. Earth Engine does not specify the order of ties.
- Selection.Pick: does not model `filterBounds(roi)`. The catalog is taken to list only images over the region.
- Sentinel2Series.DownloadSentinel2: takes the first 50 images in catalog order. The code's comment says "most recent", but the code does not sort.
- Shot dates: the calendar date is given with each Sentinel-2 shot. The local-time conversion of the millisecond timestamp is not modelled.
- Calendar dates: a valid date allows day 1..31 in every month. Month lengths do not matter to formatting or ordering.
- Cloud metric: it is a `real`, standing for the float percentage Earth Engine reports.

## Findings

| source | as written | input that shows it | evidently intended | confidence | as-written member | corrected member |
|---|---|---|---|---|---|---|
| scripts/getdata_nikumaroro.py:83 | `filterDate(f"{year}-01-01", f"{year}-12-31")`; Earth Engine's end date is exclusive, so the window stops before 31 December | a year whose only image under 30 % cloud was taken on 31 December is reported as failed (`TimeSeries.LastDayYearLost`); a clearer 31 December image is passed over for a cloudier one (`Selection.LastDayImageDisplaced`) | the whole calendar year, as the docstring says ("in that calendar year") | medium, not executed | Selection.PickBestAsWritten | Selection.PickBest |
| scripts/nikumaroro_analysis.py:239 | loaded image k is saved and recorded under `images_info[k]`, but k counts only entries whose file exists | entries [a.png (missing), b.png (present)]: b.png's frame is saved as `aligned_a.png` and recorded under a.png | each frame recorded under the entry it was loaded from; the script's own `main` cannot reach it, because every entry is recorded only after its file is written | high, not executed | Alignment.AlignAsWritten | Alignment.Align |

=== FILE: align.dfy ===
/**
 * Frame normalisation of the analysis script (`align_images`) at the level of
 * geometry and metadata: which files load, the reference size, which frames
 * are resized, and the records handed on to the viewer. Pixels are not
 * modelled; an image is its width and height.
 *
 * The script pairs the k-th image that loaded with the k-th input entry, so a
 * missing file shifts every later entry onto the wrong frame. `AlignAsWritten`
 * models that pairing, and the analysis pipeline uses it; `Align` pairs each
 * frame with the entry it was loaded from. The two agree whenever every
 * entry's file exists, which is what the script's own downloads produce.
 */
module Alignment {
  import opened Wrappers
  import opened Records

  /** Pixel size of a loaded image. */
  datatype Dims = Dims(width: int, height: int)

  /** The output directory as alignment sees it: the files that exist, with the size each decodes to. */
  type Disk = map<string, Dims>

  const ALIGNED_PREFIX: string := "aligned_"

  /** One saved aligned frame: its file name, its size, and whether it was resized to get that size. */
  datatype Frame = Frame(name: string, dims: Dims, resampled: bool)

  /** The records `align_images` returns, and the frames it saves alongside them. */
  datatype Aligned = Aligned(records: seq<ImageInfo>, frames: seq<Frame>)

  /** The keys of an entry that alignment carries over unchanged. */
  predicate SameOrigin(a: ImageInfo, b: ImageInfo)
  {
    a.date == b.date && a.timestamp == b.timestamp && a.filename == b.filename
    && a.source == b.source && a.zoom == b.zoom
  }

  /** The entries whose file exists, in input order: the images the load loop collects. */
  function Loaded(infos: seq<ImageInfo>, disk: Disk): (r: seq<ImageInfo>)
    ensures |r| <= |infos|
    ensures forall e :: e in r <==> e in infos && e.filename in disk
  {
    if |infos| == 0 then []
    else if infos[0].filename in disk then [infos[0]] + Loaded(infos[1..], disk)
    else Loaded(infos[1..], disk)
  }

  /** Loading distributes over concatenation, so it keeps the input order. */
  lemma {:induction false} LoadedAppend(a: seq<ImageInfo>, b: seq<ImageInfo>, disk: Disk)
    ensures Loaded(a + b, disk) == Loaded(a, disk) + Loaded(b, disk)
  {
    if |a| > 0 {
      assert (a + b)[0] == a[0];
      assert (a + b)[1..] == a[1..] + b;
      LoadedAppend(a[1..], b, disk);
    } else {
      assert a + b == b;
    }
  }

  /** When every file exists, every entry loads, in order. */
  lemma {:induction false} LoadedAll(infos: seq<ImageInfo>, disk: Disk)
    requires forall i :: 0 <= i < |infos| ==> infos[i].filename in disk
    ensures Loaded(infos, disk) == infos
  {
    if |infos| > 0 {
      LoadedAll(infos[1..], disk);
      assert [infos[0]] + infos[1..] == infos;
    }
  }

  /** The sizes of the loaded images, in load order. */
  function LoadedDims(infos: seq<ImageInfo>, disk: Disk): (r: seq<Dims>)
    ensures |r| == |Loaded(infos, disk)|
    ensures forall k :: 0 <= k < |r| ==> Loaded(infos, disk)[k].filename in disk && r[k] == disk[Loaded(infos, disk)[k].filename]
  {
    var loaded := Loaded(infos, disk);
    seq(|loaded|, k requires 0 <= k < |loaded| => assert loaded[k] in loaded; disk[loaded[k].filename])
  }

  /**
   * The resize loop: every frame is brought to the size of the first one, and
   * the i-th frame is recorded under `labels[i]`, with the aligned file name
   * and the reference size added.
   */
  function Normalise(dims: seq<Dims>, labels: seq<ImageInfo>): (r: Aligned)
    requires |dims| <= |labels|
    ensures |r.records| == |r.frames| == |dims|
    ensures forall i :: 0 <= i < |dims| ==>
              r.frames[i].dims == dims[0] && r.records[i].width == Some(dims[0].width) && r.records[i].height == Some(dims[0].height)
    ensures forall i :: 0 <= i < |dims| ==> (r.frames[i].resampled <==> dims[i] != dims[0])
    ensures forall i :: 0 <= i < |dims| ==>
              SameOrigin(r.records[i], labels[i])
              && r.records[i].alignedFilename == Some(ALIGNED_PREFIX + labels[i].filename)
              && r.frames[i].name == ALIGNED_PREFIX + labels[i].filename
  {
    if |dims| == 0 then Aligned([], [])
    else
      var ref := dims[0];
      Aligned(
        seq(|dims|, i requires 0 <= i < |dims| =>
          labels[i].(alignedFilename := Some(ALIGNED_PREFIX + labels[i].filename), width := Some(ref.width), height := Some(ref.height))),
        seq(|dims|, i requires 0 <= i < |dims| => Frame(ALIGNED_PREFIX + labels[i].filename, ref, dims[i] != ref)))
  }

  /**
   * `align_images` as written: nothing for an empty input or when no file
   * exists; otherwise the k-th loaded image is saved and recorded under the
   * k-th input entry, whether or not that entry's own file loaded.
   */
  function AlignAsWritten(infos: seq<ImageInfo>, disk: Disk): (r: Aligned)
    ensures |r.records| == |r.frames| == |Loaded(infos, disk)|
    ensures r == Aligned([], []) <==> forall i :: 0 <= i < |infos| ==> infos[i].filename !in disk
    ensures forall i :: 0 <= i < |r.records| ==>
              SameOrigin(r.records[i], infos[i]) && r.records[i].alignedFilename == Some(r.frames[i].name)
              && r.frames[i].name == ALIGNED_PREFIX + infos[i].filename
    ensures forall i :: 0 <= i < |r.frames| ==>
              r.frames[i].dims == disk[Loaded(infos, disk)[0].filename]
              && r.records[i].width == Some(r.frames[i].dims.width) && r.records[i].height == Some(r.frames[i].dims.height)
              && (r.frames[i].resampled <==> disk[Loaded(infos, disk)[i].filename] != r.frames[i].dims)
  {
    if |infos| == 0 then Aligned([], [])
    else
      var r := Normalise(LoadedDims(infos, disk), infos);
      assert (exists i :: 0 <= i < |infos| && infos[i].filename in disk) ==> |Loaded(infos, disk)| > 0 by {
        if i :| 0 <= i < |infos| && infos[i].filename in disk {
          assert infos[i] in Loaded(infos, disk);
        }
      }
      r
  }

  /**
   * `align_images` with each frame recorded under the entry it was loaded
   * from: the records are exactly the loaded entries, in order, each naming a
   * file that exists and describing the frame saved beside it.
   */
  function Align(infos: seq<ImageInfo>, disk: Disk): (r: Aligned)
    ensures |r.records| == |r.frames| == |Loaded(infos, disk)|
    ensures r == Aligned([], []) <==> forall i :: 0 <= i < |infos| ==> infos[i].filename !in disk
    ensures forall i :: 0 <= i < |r.records| ==>
              SameOrigin(r.records[i], Loaded(infos, disk)[i]) && r.records[i].filename in disk
              && r.records[i].alignedFilename == Some(r.frames[i].name)
              && r.frames[i].name == ALIGNED_PREFIX + r.records[i].filename
              && (r.frames[i].resampled <==> disk[r.records[i].filename] != r.frames[i].dims)
    ensures forall i :: 0 <= i < |r.records| ==>
              r.frames[i].dims == disk[r.records[0].filename]
              && r.records[i].width == Some(r.frames[i].dims.width) && r.records[i].height == Some(r.frames[i].dims.height)
  {
    if |infos| == 0 then Aligned([], [])
    else
      var loaded := Loaded(infos, disk);
      var r := Normalise(LoadedDims(infos, disk), loaded);
      assert (exists i :: 0 <= i < |infos| && infos[i].filename in disk) ==> |loaded| > 0 by {
        if i :| 0 <= i < |infos| && infos[i].filename in disk {
          assert infos[i] in loaded;
        }
      }
      r
  }

  /** When every file exists the two pairings coincide: the shift needs a missing file before an existing one. */
  lemma AlignAsWrittenWhenAllExist(infos: seq<ImageInfo>, disk: Disk)
    requires forall i :: 0 <= i < |infos| ==> infos[i].filename in disk
    ensures AlignAsWritten(infos, disk) == Align(infos, disk)
  {
    LoadedAll(infos, disk);
  }

  /**
   * A missing first file followed by an existing one: the script records the
   * frame loaded from "b.png" under the entry of "a.png", a file that does not
   * exist, while `Align` records it under "b.png".
   */
  lemma AlignAsWrittenMislabels(a: ImageInfo, b: ImageInfo, dims: Dims)
    requires a.filename == "a.png" && b.filename == "b.png"
    ensures var disk := map["b.png" := dims];
            var r := AlignAsWritten([a, b], disk);
            |r.records| == 1 && r.records[0].filename == "a.png" && "a.png" !in disk
            && Align([a, b], disk).records[0].filename == "b.png"
  {
    var disk := map["b.png" := dims];
    assert "a.png" != "b.png" by { assert "a.png"[0] != "b.png"[0]; }
    assert [a, b][1..] == [b];
    assert Loaded([b], disk) == [b];
    assert Loaded([a, b], disk) == [b];
  }

  /** Three entries whose files all exist all load, in order. */
  lemma LoadedThree(a: ImageInfo, b: ImageInfo, c: ImageInfo, disk: Disk)
    requires a.filename in disk && b.filename in disk && c.filename in disk
    ensures Loaded([a, b, c], disk) == [a, b, c]
  {
    assert [a, b, c][1..] == [b, c] && [b, c][1..] == [c] && [c][1..] == [];
    assert Loaded([c], disk) == [c];
    assert Loaded([b, c], disk) == [b, c];
  }

  /** Three present frames all take the first one's size; the others are resized when their size differs. */
  lemma AlignThree(a: ImageInfo, b: ImageInfo, c: ImageInfo, disk: Disk)
    requires a.filename in disk && b.filename in disk && c.filename in disk
    ensures var r := Align([a, b, c], disk);
            |r.frames| == 3
            && r.frames[0] == Frame(ALIGNED_PREFIX + a.filename, disk[a.filename], false)
            && r.frames[1] == Frame(ALIGNED_PREFIX + b.filename, disk[a.filename], disk[b.filename] != disk[a.filename])
            && r.frames[2] == Frame(ALIGNED_PREFIX + c.filename, disk[a.filename], disk[c.filename] != disk[a.filename])
            && r.records[2].width == Some(disk[a.filename].width) && r.records[2].height == Some(disk[a.filename].height)
  {
    LoadedThree(a, b, c, disk);
    var r := Align([a, b, c], disk);
    assert SameOrigin(r.records[0], a) && SameOrigin(r.records[1], b) && SameOrigin(r.records[2], c);
  }

  /**
   * The reference size is the first loaded image's: frames of 800x600,
   * 1024x1024 and 1024x1024 yield three 800x600 frames, the last two resized.
   */
  lemma AlignKeepsFirstSize(a: ImageInfo, b: ImageInfo, c: ImageInfo)
    requires a.filename == "a.png" && b.filename == "b.png" && c.filename == "c.png"
    ensures var r := Align([a, b, c], map["a.png" := Dims(800, 600), "b.png" := Dims(1024, 1024), "c.png" := Dims(1024, 1024)]);
            |r.frames| == 3 && r.frames[0] == Frame(ALIGNED_PREFIX + "a.png", Dims(800, 600), false)
            && r.frames[1] == Frame(ALIGNED_PREFIX + "b.png", Dims(800, 600), true)
            && r.frames[2] == Frame(ALIGNED_PREFIX + "c.png", Dims(800, 600), true)
            && r.records[2].width == Some(800) && r.records[2].height == Some(600)
  {
    var disk := map["a.png" := Dims(800, 600), "b.png" := Dims(1024, 1024), "c.png" := Dims(1024, 1024)];
    assert "a.png" != "b.png" && "a.png" != "c.png" && "b.png" != "c.png" by {
      assert "a.png"[0] == 'a' && "b.png"[0] == 'b' && "c.png"[0] == 'c';
    }
    assert disk[a.filename] == Dims(800, 600) && disk[b.filename] == Dims(1024, 1024) && disk[c.filename] == Dims(1024, 1024);
    AlignThree(a, b, c, disk);
  }

  /** Aligning frames that already share one size resizes none of them. */
  lemma AlignUniformUntouched(infos: seq<ImageInfo>, disk: Disk)
    requires forall i, j :: 0 <= i < |infos| && 0 <= j < |infos| && infos[i].filename in disk && infos[j].filename in disk
               ==> disk[infos[i].filename] == disk[infos[j].filename]
    ensures forall i :: 0 <= i < |Align(infos, disk).frames| ==> !Align(infos, disk).frames[i].resampled
  {
    var r := Align(infos, disk);
    var loaded := Loaded(infos, disk);
    forall i | 0 <= i < |r.frames|
      ensures !r.frames[i].resampled
    {
      assert loaded[i] in loaded && loaded[0] in loaded;
    }
  }
}

=== FILE: analysis.dfy ===
/**
 * The pipeline of the analysis script (`main`): the Sentinel-2 series when
 * Earth Engine is reachable, then the static map tiles, then alignment, then
 * the viewer configuration when at least one image was aligned.
 */
module Analysis {
  import opened Wrappers
  import opened Records
  import opened StableSort
  import opened Download
  import opened Manifest
  import opened Alignment
  import opened Sentinel2Series

  /**
   * The entries collected before alignment, `all_images`: the Sentinel-2
   * entries in download order, then the tiles. `shots` is `None` when Earth
   * Engine could not be initialised or queried: the script catches that and
   * goes on with the tiles alone.
   */
  function Gathered(shots: Option<seq<Shot>>, net: Thumbs, files: Files, tiles: seq<ImageInfo>): (r: seq<ImageInfo>)
    ensures shots.None? ==> r == tiles
    ensures |tiles| <= |r| && r[|r| - |tiles|..] == tiles
    ensures shots.Some? ==> r[..|r| - |tiles|] == DownloadSentinel2(shots.value, net, files).infos
    ensures forall e :: e in tiles ==> e in r
    ensures forall e :: e in r && e !in tiles ==>
              shots.Some? && exists i :: 0 <= i < |shots.value| && i < MAX_SHOTS && e == SeriesEntry(shots.value[i])
  {
    var series := if shots.Some? then DownloadSentinel2(shots.value, net, files).infos else [];
    assert (series + tiles)[..|series|] == series && (series + tiles)[|series|..] == tiles;
    series + tiles
  }

  /** Alignment as written keeps the date and the timestamp of the i-th input entry, hence its sort key. */
  lemma AlignedKeys(infos: seq<ImageInfo>, disk: Disk)
    ensures |AlignAsWritten(infos, disk).records| <= |infos|
    ensures forall i :: 0 <= i < |AlignAsWritten(infos, disk).records| ==>
              ViewerKey(AlignAsWritten(infos, disk).records[i]) == ViewerKey(infos[i])
  {
  }

  /** Lists with the same keys position by position have one key kind together. */
  lemma SameKeysSameKind(a: seq<ImageInfo>, b: seq<ImageInfo>)
    requires |a| == |b| && forall i :: 0 <= i < |a| ==> ViewerKey(a[i]) == ViewerKey(b[i])
    ensures OneKeyKind(a) <==> OneKeyKind(b)
  {
  }

  /**
   * How the analysis script ends: nothing to align, a configuration, or the
   * `TypeError` Python raises when the sort compares an integer timestamp
   * with a date string.
   */
  datatype Analysed = NothingAligned | Configured(config: ViewerConfig) | MixedKeys

  /**
   * `align_images` as written, followed by the viewer configuration. Nothing
   * is aligned exactly when no entry's file exists. Otherwise the records carry
   * the keys of the first entries of `all`, one per loaded file, so the sort
   * fails exactly when those entries mix timestamps and dates; the
   * configuration lists the aligned records sorted by timestamp or date, all
   * sharing one size.
   */
  function AlignAndConfigure(all: seq<ImageInfo>, disk: Disk, generated: string): (r: Analysed)
    ensures |Loaded(all, disk)| <= |all|
    ensures r.NothingAligned? <==> forall e :: e in all ==> e.filename !in disk
    ensures r.MixedKeys? <==> (exists e :: e in all && e.filename in disk) && !OneKeyKind(all[..|Loaded(all, disk)|])
    ensures r.Configured? ==>
              |AlignAsWritten(all, disk).records| > 0 && OneKeyKind(AlignAsWritten(all, disk).records)
              && r.config == CreateViewerConfig(AlignAsWritten(all, disk).records, generated)
    ensures r.Configured? ==>
              multiset(r.config.images) == multiset(AlignAsWritten(all, disk).records)
              && SortedBy(r.config.images, ViewerKey)
              && r.config.metadata.totalImages == |Loaded(all, disk)|
    ensures r.Configured? ==>
              forall i, j :: 0 <= i < |r.config.images| && 0 <= j < |r.config.images| ==>
                r.config.images[i].width == r.config.images[j].width && r.config.images[i].height == r.config.images[j].height
  {
    var aligned := AlignAsWritten(all, disk);
    AlignedKinds(all, disk);
    AlignedNone(all, disk);
    if |aligned.records| == 0 then NothingAligned
    else if !OneKeyKind(aligned.records) then MixedKeys
    else
      var c := CreateViewerConfig(aligned.records, generated);
      AlignedRecordsUniform(c.images, aligned.records);
      Configured(c)
  }

  /** The as-written records have one key kind exactly when the first entries of `all`, one per loaded file, do. */
  lemma AlignedKinds(all: seq<ImageInfo>, disk: Disk)
    ensures |Loaded(all, disk)| <= |all|
    ensures OneKeyKind(AlignAsWritten(all, disk).records) <==> OneKeyKind(all[..|Loaded(all, disk)|])
  {
    AlignedKeys(all, disk);
    SameKeysSameKind(AlignAsWritten(all, disk).records, all[..|Loaded(all, disk)|]);
  }

  /** Alignment as written records nothing exactly when no entry's file exists. */
  lemma AlignedNone(all: seq<ImageInfo>, disk: Disk)
    ensures |AlignAsWritten(all, disk).records| == 0 <==> forall e :: e in all ==> e.filename !in disk
  {
    var loaded := Loaded(all, disk);
    if |loaded| > 0 {
      assert loaded[0] in loaded;
    }
  }

  /** Records that all share one size still do after any reordering. */
  lemma AlignedRecordsUniform(images: seq<ImageInfo>, rs: seq<ImageInfo>)
    requires multiset(images) == multiset(rs)
    requires forall k, l :: 0 <= k < |rs| && 0 <= l < |rs| ==> rs[k].width == rs[l].width && rs[k].height == rs[l].height
    ensures forall i, j :: 0 <= i < |images| && 0 <= j < |images| ==>
              images[i].width == images[j].width && images[i].height == images[j].height
  {
    forall i, j | 0 <= i < |images| && 0 <= j < |images|
      ensures images[i].width == images[j].width && images[i].height == images[j].height
    {
      assert images[i] in multiset(rs) && images[j] in multiset(rs);
      var k :| 0 <= k < |rs| && rs[k] == images[i];
      var l :| 0 <= l < |rs| && rs[l] == images[j];
    }
  }

  /** Every entry's file exists: the situation the script's own downloads produce. */
  ghost predicate AllOnDisk(all: seq<ImageInfo>, disk: Disk)
  {
    forall e :: e in all ==> e.filename in disk
  }

  /**
   * When every entry's file exists, the as-written pairing is harmless: the
   * sort fails exactly when the entries mix key kinds, and the configuration
   * lists the loaded entries' records, each naming an existing file.
   */
  lemma AllOnDiskConfigured(all: seq<ImageInfo>, disk: Disk, generated: string)
    requires AllOnDisk(all, disk)
    ensures var r := AlignAndConfigure(all, disk, generated);
            r.MixedKeys? <==> |all| > 0 && !OneKeyKind(all)
    ensures var r := AlignAndConfigure(all, disk, generated);
            r.Configured? ==>
              multiset(r.config.images) == multiset(Align(all, disk).records)
              && forall i :: 0 <= i < |r.config.images| ==> r.config.images[i].filename in disk
  {
    assert forall i :: 0 <= i < |all| ==> all[i].filename in disk by {
      forall i | 0 <= i < |all| ensures all[i].filename in disk {
        assert all[i] in all;
      }
    }
    LoadedAll(all, disk);
    AlignAsWrittenWhenAllExist(all, disk);
    assert all[..|all|] == all;
    if |all| > 0 {
      assert all[0] in all;
    }
    var r := AlignAndConfigure(all, disk, generated);
    if r.Configured? {
      RecordsOnDisk(r.config.images, Align(all, disk).records, disk);
    }
  }

  /** Records whose files all exist still do after any reordering. */
  lemma RecordsOnDisk(images: seq<ImageInfo>, rs: seq<ImageInfo>, disk: Disk)
    requires multiset(images) == multiset(rs)
    requires forall k :: 0 <= k < |rs| ==> rs[k].filename in disk
    ensures forall i :: 0 <= i < |images| ==> images[i].filename in disk
  {
    forall i | 0 <= i < |images|
      ensures images[i].filename in disk
    {
      assert images[i] in multiset(rs);
      var k :| 0 <= k < |rs| && rs[k] == images[i];
    }
  }

  /** With every file present, an entry sorted by timestamp next to one sorted by date makes the script raise. */
  lemma MixedKeysRaise(all: seq<ImageInfo>, disk: Disk, generated: string, a: ImageInfo, b: ImageInfo)
    requires AllOnDisk(all, disk)
    requires a in all && ViewerKey(a).IntKey?
    requires b in all && ViewerKey(b).StrKey?
    ensures AlignAndConfigure(all, disk, generated) == MixedKeys
  {
    AllOnDiskConfigured(all, disk, generated);
    var i :| 0 <= i < |all| && all[i] == a;
    var j :| 0 <= j < |all| && all[j] == b;
  }

  /**
   * `main`: the Sentinel-2 series (when reachable) and the tiles, aligned as
   * written and written out as a viewer configuration. An existing tile
   * always gets past alignment; without Earth Engine only the tiles count.
   */
  function AnalysisRun(shots: Option<seq<Shot>>, net: Thumbs, files: Files, tiles: seq<ImageInfo>, disk: Disk, generated: string)
    : (r: Analysed)
    ensures r == AlignAndConfigure(Gathered(shots, net, files, tiles), disk, generated)
    ensures (exists e :: e in tiles && e.filename in disk) ==> !r.NothingAligned?
    ensures shots.None? ==> r == AlignAndConfigure(tiles, disk, generated)
  {
    var all := Gathered(shots, net, files, tiles);
    assert forall e :: e in tiles ==> e in all;
    AlignAndConfigure(all, disk, generated)
  }

  /**
   * The script's central outcome: once one of the first 50 Sentinel-2 shots
   * was saved and a static tile was downloaded, and their files are present,
   * the sort compares a timestamp with the date "current" and raises.
   */
  lemma SeriesBesideTileRaises(shots: seq<Shot>, net: Thumbs, files: Files, tiles: seq<ImageInfo>, disk: Disk,
                               generated: string, i: nat, t: ImageInfo)
    requires i < |shots| && i < MAX_SHOTS && Saves(net(shots[i])) && shots[i].timestampMs != 0
    requires t in tiles && t.timestamp.None?
    requires forall k :: 0 <= k < |shots| && k < MAX_SHOTS && Saves(net(shots[k])) ==> SeriesFilename(shots[k].date) in disk
    requires forall e :: e in tiles ==> e.filename in disk
    ensures AnalysisRun(Some(shots), net, files, tiles, disk, generated) == MixedKeys
  {
    var all := Gathered(Some(shots), net, files, tiles);
    var series := DownloadSentinel2(shots, net, files).infos;
    GatheredOnDisk(shots, net, files, tiles, disk);
    var a := SeriesEntry(shots[i]);
    assert a in series;
    assert a in all by {
      var k :| 0 <= k < |series| && series[k] == a;
      assert all[..|all| - |tiles|][k] == a;
    }
    assert t in all;
    MixedKeysRaise(all, disk, generated, a, t);
  }

  /** The files of the saved shots among the first 50 and of the tiles being present puts every gathered entry on disk. */
  lemma GatheredOnDisk(shots: seq<Shot>, net: Thumbs, files: Files, tiles: seq<ImageInfo>, disk: Disk)
    requires forall k :: 0 <= k < |shots| && k < MAX_SHOTS && Saves(net(shots[k])) ==> SeriesFilename(shots[k].date) in disk
    requires forall e :: e in tiles ==> e.filename in disk
    ensures AllOnDisk(Gathered(Some(shots), net, files, tiles), disk)
  {
    var all := Gathered(Some(shots), net, files, tiles);
    var series := DownloadSentinel2(shots, net, files).infos;
    assert all == all[..|all| - |tiles|] + all[|all| - |tiles|..];
    assert all == series + tiles;
    forall e | e in series
      ensures e.filename in disk
    {
      var j :| 0 <= j < |shots| && j < MAX_SHOTS && Saves(net(shots[j])) && e == SeriesEntry(shots[j]);
    }
  }
}

=== FILE: dates.dfy ===
/**
 * Acquisition dates and their `YYYY-MM-dd` rendering. Image dates reach the
 * manifest as strings, and the manifest is ordered by comparing those strings;
 * this module shows that the string order is the calendar order.
 */
module Dates {
  import opened Strings

  datatype Date = Date(year: int, month: int, day: int) {
    /** Four-digit year and in-range month and day: the fields `YYYY-MM-dd` can render. */
    predicate Valid()
    {
      0 <= year < 10000 && 1 <= month <= 12 && 1 <= day <= 31
    }
  }

  type CalendarDate = d: Date | d.Valid() witness Date(2000, 1, 1)

  /** Calendar order: year, then month, then day. */
  predicate DateLe(a: Date, b: Date)
  {
    a.year < b.year || (a.year == b.year && (a.month < b.month || (a.month == b.month && a.day <= b.day)))
  }

  predicate DateLt(a: Date, b: Date)
  {
    DateLe(a, b) && a != b
  }

  /** The `"YYYY-MM-dd"` string Earth Engine produces for an image date. */
  function Format(d: CalendarDate): (r: string)
    ensures |r| == 10 && r[4] == '-' && r[7] == '-'
  {
    PadDigits(d.year, 4) + ("-" + (PadDigits(d.month, 2) + ("-" + PadDigits(d.day, 2))))
  }

  /** The `YYYYMMDD` form of a date, digits only. */
  function Compact(d: CalendarDate): (r: string)
    ensures |r| == 8 && IsDigits(r)
  {
    PadDigits(d.year, 4) + PadDigits(d.month, 2) + PadDigits(d.day, 2)
  }

  /** Formatted dates compare as strings exactly as the dates compare on the calendar. */
  lemma FormatOrder(a: CalendarDate, b: CalendarDate)
    ensures StrLe(Format(a), Format(b)) <==> DateLe(a, b)
    ensures Format(a) == Format(b) <==> a == b
  {
    var ya, yb := PadDigits(a.year, 4), PadDigits(b.year, 4);
    var ma, mb := PadDigits(a.month, 2), PadDigits(b.month, 2);
    var da, db := PadDigits(a.day, 2), PadDigits(b.day, 2);
    PadDigitsOrder(a.year, b.year, 4);
    PadDigitsOrder(a.month, b.month, 2);
    PadDigitsOrder(a.day, b.day, 2);
    StrLeReflexive("-");
    StrLeAppend("-", da, "-", db);
    StrLeAppend(ma, "-" + da, mb, "-" + db);
    StrLeAppend("-", ma + ("-" + da), "-", mb + ("-" + db));
    StrLeAppend(ya, "-" + (ma + ("-" + da)), yb, "-" + (mb + ("-" + db)));
    SplitEqual(ya, "-" + (ma + ("-" + da)), yb, "-" + (mb + ("-" + db)));
    SplitEqual("-", ma + ("-" + da), "-", mb + ("-" + db));
    SplitEqual(ma, "-" + da, mb, "-" + db);
    SplitEqual("-", da, "-", db);
  }

  /** Removing the dashes from `YYYY-MM-dd` leaves `YYYYMMDD`. */
  lemma FormatWithoutDashes(d: CalendarDate)
    ensures RemoveChar(Format(d), '-') == Compact(d)
  {
    var y, m, dd := PadDigits(d.year, 4), PadDigits(d.month, 2), PadDigits(d.day, 2);
    RemoveCharAppend(y, "-" + (m + ("-" + dd)), '-');
    RemoveCharAppend("-", m + ("-" + dd), '-');
    RemoveCharAppend(m, "-" + dd, '-');
    RemoveCharAppend("-", dd, '-');
    RemoveCharAbsent(y, '-');
    RemoveCharAbsent(m, '-');
    RemoveCharAbsent(dd, '-');
    assert RemoveChar("-", '-') == [];
  }

  /** Distinct dates have distinct `YYYYMMDD` forms. */
  lemma CompactInjective(a: CalendarDate, b: CalendarDate)
    requires Compact(a) == Compact(b)
    ensures a == b
  {
    var ya, yb := PadDigits(a.year, 4), PadDigits(b.year, 4);
    var ma, mb := PadDigits(a.month, 2), PadDigits(b.month, 2);
    var da, db := PadDigits(a.day, 2), PadDigits(b.day, 2);
    assert Compact(a) == ya + (ma + da) && Compact(b) == yb + (mb + db);
    SplitEqual(ya, ma + da, yb, mb + db);
    SplitEqual(ma, da, mb, db);
    PadDigitsOrder(a.year, b.year, 4);
    PadDigitsOrder(a.month, b.month, 2);
    PadDigitsOrder(a.day, b.day, 2);
  }
}

=== FILE: download.dfy ===
/**
 * Validation of a thumbnail download (`download_image`): a response is kept
 * only when no exception was raised, the status is 200, the Content-Type
 * mentions "image", and the body decodes as an image. Only a kept response is
 * written to the output directory.
 */
module Download {
  import opened Strings

  newtype byte = x: int | 0 <= x < 256

  /** The output directory: file name to file contents. */
  type Files = map<string, seq<byte>>

  /**
   * What one download attempt produced. `raises` stands for an exception from
   * building the URL or from the HTTP request (including the 120 s timeout);
   * `contentType` is the Content-Type header, "" when the header is missing;
   * `decodes` says whether the body opens and verifies as an image.
   */
  datatype Response = Response(status: int, contentType: string, content: seq<byte>, decodes: bool, raises: bool)

  /** Why a download was refused, in the order the checks are made. */
  datatype Rejection = TransportError | BadResponse(status: int, contentType: string) | Undecodable

  datatype Verdict = Accepted | Rejected(why: Rejection)

  const OK_STATUS: int := 200
  const IMAGE_MARKER: string := "image"

  /** The checks of `download_image`, in the order it makes them. */
  function Check(resp: Response): (v: Verdict)
    ensures v.Accepted? <==>
              !resp.raises && resp.status == OK_STATUS
              && (exists i :: OccursAt(IMAGE_MARKER, resp.contentType, i)) && resp.decodes
    ensures resp.raises ==> v == Rejected(TransportError)
    ensures !resp.raises && resp.status != OK_STATUS ==> v == Rejected(BadResponse(resp.status, resp.contentType))
    ensures !resp.raises && !(exists i :: OccursAt(IMAGE_MARKER, resp.contentType, i))
            ==> v == Rejected(BadResponse(resp.status, resp.contentType))
    ensures !resp.raises && resp.status == OK_STATUS && Contains(resp.contentType, IMAGE_MARKER) && !resp.decodes
            ==> v == Rejected(Undecodable)
    ensures v == Rejected(Undecodable) ==>
              !resp.raises && resp.status == OK_STATUS && Contains(resp.contentType, IMAGE_MARKER) && !resp.decodes
  {
    if resp.raises then Rejected(TransportError)
    else if resp.status != OK_STATUS || !Contains(resp.contentType, IMAGE_MARKER) then
      Rejected(BadResponse(resp.status, resp.contentType))
    else if !resp.decodes then Rejected(Undecodable)
    else Accepted
  }

  predicate Accepts(resp: Response)
  {
    Check(resp).Accepted?
  }

  datatype Saved = Saved(ok: bool, files: Files)

  /** `download_image`: returns whether the image was kept, and the directory after the attempt. */
  function DownloadImage(resp: Response, filename: string, files: Files): (r: Saved)
    ensures r.ok <==> Accepts(resp)
    ensures r.ok ==> filename in r.files && r.files[filename] == resp.content
    ensures forall f :: f != filename ==> (f in r.files <==> f in files) && (f in files ==> r.files[f] == files[f])
    ensures !r.ok ==> r.files == files
  {
    if Accepts(resp) then Saved(true, files[filename := resp.content])
    else Saved(false, files)
  }

  /** Downloading the same response to the same name twice leaves what one download leaves. */
  lemma DownloadIdempotent(resp: Response, filename: string, files: Files)
    ensures DownloadImage(resp, filename, DownloadImage(resp, filename, files).files)
            == DownloadImage(resp, filename, files)
  {
  }

  /** An HTML error page served with status 200 is refused. */
  lemma HtmlPageRejected(body: seq<byte>, decodes: bool)
    ensures Check(Response(200, "text/html", body, decodes, false)) == Rejected(BadResponse(200, "text/html"))
  {
    var ct := "text/html";
    assert ct == ['t', 'e', 'x', 't', '/', 'h', 't', 'm', 'l'];
    assert 'i' !in ct;
    NotContainsWithoutHead(ct, IMAGE_MARKER);
  }

  /** A truncated PNG served as `image/png` with status 200 is refused at decoding. */
  lemma TruncatedPngRejected(body: seq<byte>)
    ensures Check(Response(200, "image/png", body, false, false)) == Rejected(Undecodable)
  {
    assert OccursAt(IMAGE_MARKER, "image/png", 0);
  }
}

=== FILE: manifest.dfy ===
/**
 * The viewer manifest (`viewer_config.json`): the location block, the image
 * entries in chronological order, and the metadata block with the image count
 * and the first and last dates. Two builders exist, one per script.
 */
module Manifest {
  import opened Wrappers
  import opened Strings
  import opened StableSort
  import opened Records

  datatype Location = Location(name: string, lat: real, lon: real, description: string)

  /** The point of interest both scripts write into the manifest. */
  const TARAIA: Location := Location(
    "Taraia Object, Nikumaroro Island",
    -4.686167,
    -174.498083,
    "Suspected location of Amelia Earhart's Lockheed Electra 10E")

  /** Sentinel for a date range field with no date to report. */
  const UNKNOWN: string := "unknown"

  datatype DateRange = DateRange(start: string, end: string)

  /** `generated` is the wall-clock time of the run, supplied by the caller. */
  datatype Metadata = Metadata(generated: string, totalImages: nat, dateRange: DateRange)

  datatype ViewerConfig = ViewerConfig(location: Location, images: seq<ImageInfo>, metadata: Metadata)

  predicate AllDated(images: seq<ImageInfo>)
  {
    forall i :: 0 <= i < |images| ==> images[i].date.Some?
  }

  /** The yearly downloader's sort key, `x["date"]`. */
  function DateKey(e: ImageInfo): (k: Key)
    ensures k.StrKey? && (e.date.Some? ==> k.s == e.date.value)
  {
    StrKey(e.date.GetOr(""))
  }

  /**
   * The yearly downloader's manifest: entries sorted by date string (stable),
   * the count, and the first and last dates, or "unknown" for both when there
   * are no entries. Every entry must carry a date (`x["date"]` raises otherwise).
   */
  function WriteViewerConfig(images: seq<ImageInfo>, generated: string): (c: ViewerConfig)
    requires AllDated(images)
    ensures c.location == TARAIA && c.metadata.generated == generated
    ensures multiset(c.images) == multiset(images) && AllDated(c.images)
    ensures forall i, j :: 0 <= i < j < |c.images| ==> StrLe(c.images[i].date.value, c.images[j].date.value)
    ensures forall d :: WithKey(c.images, DateKey, StrKey(d)) == WithKey(images, DateKey, StrKey(d))
    ensures c.metadata.totalImages == |images|
    ensures |images| == 0 ==> c.metadata.dateRange == DateRange(UNKNOWN, UNKNOWN)
    ensures |images| > 0 ==> c.metadata.dateRange == DateRange(c.images[0].date.value, c.images[|images| - 1].date.value)
    ensures forall e :: e in images ==>
              StrLe(c.metadata.dateRange.start, e.date.value) && StrLe(e.date.value, c.metadata.dateRange.end)
  {
    var sorted := SortBy(images, DateKey);
    DatedAfterSort(images, sorted);
    var range := if |sorted| == 0 then DateRange(UNKNOWN, UNKNOWN)
                 else DateRange(sorted[0].date.value, sorted[|sorted| - 1].date.value);
    DateRangeBounds(images, sorted);
    ViewerConfig(TARAIA, sorted, Metadata(generated, |sorted|, range))
  }

  /** Entries already in strictly increasing date order are listed unchanged. */
  lemma WriteViewerConfigChronological(images: seq<ImageInfo>, generated: string)
    requires AllDated(images)
    requires forall i, j :: 0 <= i < j < |images| ==> StrLt(images[i].date.value, images[j].date.value)
    ensures WriteViewerConfig(images, generated).images == images
  {
    assert SortedBy(images, DateKey);
    SortBySorted(images, DateKey);
  }

  lemma DatedAfterSort(images: seq<ImageInfo>, sorted: seq<ImageInfo>)
    requires AllDated(images) && multiset(sorted) == multiset(images)
    ensures AllDated(sorted) && |sorted| == |images|
    ensures forall e :: e in images <==> e in sorted
  {
    assert |sorted| == |multiset(sorted)| == |multiset(images)| == |images|;
    forall i | 0 <= i < |sorted|
      ensures sorted[i].date.Some?
    {
      assert sorted[i] in multiset(images);
      var j :| 0 <= j < |images| && images[j] == sorted[i];
    }
    forall e
      ensures e in images <==> e in sorted
    {
      assert e in images <==> e in multiset(images);
      assert e in sorted <==> e in multiset(sorted);
    }
  }

  /** In a date-sorted list the first entry has the least date and the last the greatest. */
  lemma DateRangeBounds(images: seq<ImageInfo>, sorted: seq<ImageInfo>)
    requires AllDated(sorted) && SortedBy(sorted, DateKey)
    requires forall e :: e in images ==> e in sorted
    ensures forall e :: e in images ==>
              StrLe(sorted[0].date.value, e.date.value) && StrLe(e.date.value, sorted[|sorted| - 1].date.value)
  {
    forall e | e in images
      ensures StrLe(sorted[0].date.value, e.date.value) && StrLe(e.date.value, sorted[|sorted| - 1].date.value)
    {
      var j :| 0 <= j < |sorted| && sorted[j] == e;
      StrLeReflexive(e.date.value);
      if j > 0 {
        assert KeyLe(DateKey(sorted[0]), DateKey(sorted[j]));
      }
      if j < |sorted| - 1 {
        assert KeyLe(DateKey(sorted[j]), DateKey(sorted[|sorted| - 1]));
      }
    }
  }

  /**
   * The analysis script's sort key, `x.get('timestamp', 0) or x.get('date', '')`:
   * the timestamp when present and non-zero, otherwise the date.
   */
  function ViewerKey(e: ImageInfo): (k: Key)
    ensures k.IntKey? <==> e.timestamp.Some? && e.timestamp.value != 0
    ensures k.IntKey? ==> k.i == e.timestamp.value
    ensures k.StrKey? ==> k.s == (if e.date.Some? then e.date.value else "")
  {
    if e.timestamp.Some? && e.timestamp.value != 0 then IntKey(e.timestamp.value)
    else StrKey(e.date.GetOr(""))
  }

  /** All sort keys are integers or all are strings, so Python can compare them. */
  predicate OneKeyKind(images: seq<ImageInfo>)
  {
    (forall i :: 0 <= i < |images| ==> ViewerKey(images[i]).IntKey?)
    || (forall i :: 0 <= i < |images| ==> ViewerKey(images[i]).StrKey?)
  }

  /**
   * The analysis script's manifest: entries stably sorted by `ViewerKey`, the
   * count, and the `date` of the first and last entries, "unknown" where absent.
   * It is only called with at least one entry.
   */
  function CreateViewerConfig(images: seq<ImageInfo>, generated: string): (c: ViewerConfig)
    requires |images| > 0
    requires OneKeyKind(images)
    ensures c.location == TARAIA && c.metadata.generated == generated
    ensures multiset(c.images) == multiset(images) && |c.images| == |images|
    ensures SortedBy(c.images, ViewerKey)
    ensures forall k :: WithKey(c.images, ViewerKey, k) == WithKey(images, ViewerKey, k)
    ensures c.metadata.totalImages == |images|
    ensures c.metadata.dateRange.start == c.images[0].date.GetOr(UNKNOWN)
    ensures c.metadata.dateRange.end == c.images[|images| - 1].date.GetOr(UNKNOWN)
  {
    var sorted := SortBy(images, ViewerKey);
    assert |sorted| == |multiset(sorted)| == |multiset(images)| == |images|;
    ViewerConfig(TARAIA, sorted, Metadata(generated, |sorted|,
      DateRange(sorted[0].date.GetOr(UNKNOWN), sorted[|sorted| - 1].date.GetOr(UNKNOWN))))
  }
}

=== FILE: records.dfy ===
/** The per-image dictionaries both scripts build and hand to the viewer. */
module Records {
  import opened Wrappers

  /**
   * One entry of a manifest's `images` list. Each field is one dictionary key;
   * `None` means the key is absent. `timestamp` is set only by the
   * all-dates Sentinel-2 download; `aligned_filename`, `width` and `height` are
   * set by the yearly downloader directly, or later by alignment; `zoom` is
   * set only on the static map tiles.
   */
  datatype ImageInfo = ImageInfo(
    date: Option<string>,
    timestamp: Option<int>,
    filename: string,
    source: string,
    alignedFilename: Option<string>,
    width: Option<int>,
    height: Option<int>,
    zoom: Option<int>)
}

=== FILE: selection.dfy ===
/**
 * Per-year choice of the image to download (`get_best_sentinel2`,
 * `get_best_landsat8` and the source fallback in `main`), the per-source
 * rendering parameters (`S2_VIS`, `L8_VIS`), and the per-year file names.
 * Earth Engine is abstracted as a catalog: for each collection, the images
 * over the region of interest, in catalog order.
 */
module Selection {
  import opened Wrappers
  import opened Strings
  import opened Dates

  datatype Source = Sentinel2 | Landsat8

  /**
   * One catalog image: its id, acquisition date, and cloud metric
   * (`CLOUDY_PIXEL_PERCENTAGE` for Sentinel-2, `CLOUD_COVER` for Landsat 8).
   */
  datatype Candidate = Candidate(id: string, date: CalendarDate, cloud: real)

  type Catalog = Source -> seq<Candidate>

  /** Images must be strictly less cloudy than this, in percent. */
  const CLOUD_LIMIT: real := 30.0

  /** First year in which Sentinel-2 is tried. */
  const SENTINEL2_FROM: int := 2015

  /**
   * The date filter as written, `filterDate(f"{year}-01-01", f"{year}-12-31")`.
   * Earth Engine treats the end of that range as exclusive.
   */
  predicate InWindowAsWritten(d: Date, year: int)
  {
    DateLe(Date(year, 1, 1), d) && DateLt(d, Date(year, 12, 31))
  }

  /** The date filter as intended: the whole calendar year. */
  predicate InYear(d: Date, year: int)
  {
    d.year == year
  }

  /**
   * The filter as written is the calendar year minus its last day: an image of
   * 31 December 2016, say, is in the year 2016 but outside its window.
   */
  lemma WindowAsWrittenDropsLastDay(d: CalendarDate, year: int)
    ensures InWindowAsWritten(d, year) <==> InYear(d, year) && !(d.month == 12 && d.day == 31)
  {
  }

  /** The date filter a query uses: `filterDate` as the script writes it, or the whole calendar year. */
  datatype Window = AsWritten | CalendarYear

  predicate InWindow(w: Window, d: Date, year: int)
  {
    match w
    case AsWritten => InWindowAsWritten(d, year)
    case CalendarYear => InYear(d, year)
  }

  /** A candidate for `year`: inside the date window, and under the cloud limit. */
  predicate Qualifies(c: Candidate, year: int, w: Window)
  {
    InWindow(w, c.date, year) && c.cloud < CLOUD_LIMIT
  }

  /** The images the collection query returns for `year`, in catalog order. */
  function Query(s: seq<Candidate>, year: int, w: Window): (r: seq<Candidate>)
    ensures forall c :: c in r <==> c in s && Qualifies(c, year, w)
  {
    if |s| == 0 then []
    else (if Qualifies(s[0], year, w) then [s[0]] else []) + Query(s[1..], year, w)
  }

  /** The least cloudy candidate; among equals, the first in catalog order. */
  function LeastCloudy(s: seq<Candidate>): (r: Candidate)
    requires |s| > 0
    ensures r in s
    ensures forall c :: c in s ==> r.cloud <= c.cloud
  {
    if |s| == 1 then s[0]
    else
      var rest := LeastCloudy(s[1..]);
      assert forall c :: c in s ==> c == s[0] || c in s[1..];
      if s[0].cloud <= rest.cloud then s[0] else rest
  }

  /**
   * `get_best_sentinel2` / `get_best_landsat8` for either date window: the
   * least cloudy image of the source's collection inside the window with cloud
   * below the limit, if any. Both windows lie inside the calendar year.
   */
  function Pick(cat: Catalog, src: Source, year: int, w: Window): (r: Option<Candidate>)
    ensures r.None? <==> forall c :: c in cat(src) ==> !Qualifies(c, year, w)
    ensures r.Some? ==> r.value in cat(src) && Qualifies(r.value, year, w) && r.value.date.year == year
    ensures r.Some? ==> forall c :: c in cat(src) && Qualifies(c, year, w) ==> r.value.cloud <= c.cloud
  {
    var q := Query(cat(src), year, w);
    if |q| == 0 then None else Some(LeastCloudy(q))
  }

  /** `get_best_sentinel2` / `get_best_landsat8` as written, with the window that stops before 31 December. */
  function PickBestAsWritten(cat: Catalog, src: Source, year: int): (r: Option<Candidate>)
    ensures r.None? <==> forall c :: c in cat(src) && c.cloud < CLOUD_LIMIT ==> !InWindowAsWritten(c.date, year)
    ensures r.Some? ==> r.value in cat(src) && InWindowAsWritten(r.value.date, year) && r.value.cloud < CLOUD_LIMIT
    ensures r.Some? ==> forall c :: c in cat(src) && InWindowAsWritten(c.date, year) && c.cloud < CLOUD_LIMIT ==>
              r.value.cloud <= c.cloud
  {
    Pick(cat, src, year, AsWritten)
  }

  /** `get_best_sentinel2` / `get_best_landsat8` over the whole calendar year, as the docstrings describe them. */
  function PickBest(cat: Catalog, src: Source, year: int): (r: Option<Candidate>)
    ensures r.None? <==> forall c :: c in cat(src) ==> !(c.date.year == year && c.cloud < CLOUD_LIMIT)
    ensures r.Some? ==> r.value in cat(src) && r.value.date.year == year && r.value.cloud < CLOUD_LIMIT
    ensures r.Some? ==> forall c :: c in cat(src) && c.date.year == year && c.cloud < CLOUD_LIMIT ==> r.value.cloud <= c.cloud
  {
    Pick(cat, src, year, CalendarYear)
  }

  /**
   * A year whose only clear image was taken on 31 December: the query as
   * written finds nothing and the year is lost, while the calendar-year pick
   * finds the image.
   */
  lemma LastDayImageMissed(cat: Catalog, src: Source)
    requires cat(src) == [Candidate("x", Date(2016, 12, 31), 5.0)]
    ensures PickBestAsWritten(cat, src, 2016).None?
    ensures PickBest(cat, src, 2016) == Some(Candidate("x", Date(2016, 12, 31), 5.0))
  {
    assert Qualifies(cat(src)[0], 2016, CalendarYear);
  }

  datatype Choice = Selected(source: Source, cand: Candidate) | NoCoverage

  /** The outcome of a year's selection, and the sources queried to reach it, in order. */
  datatype Attempt = Attempt(choice: Choice, queried: seq<Source>)

  /** The sources to try for `year`, in order: Sentinel-2 only from 2015 on. */
  function Priority(year: int): (order: seq<Source>)
    ensures Landsat8 in order && (Sentinel2 in order <==> year >= SENTINEL2_FROM)
    ensures order[0] == (if year >= SENTINEL2_FROM then Sentinel2 else Landsat8)
  {
    if year >= SENTINEL2_FROM then [Sentinel2, Landsat8] else [Landsat8]
  }

  /**
   * Tries the sources of `order` one after another and stops at the first that
   * yields an image: every source queried before the winner yielded nothing, and
   * no source after it is queried.
   */
  function TryInOrder(cat: Catalog, year: int, order: seq<Source>, w: Window): (a: Attempt)
    ensures |a.queried| <= |order| && a.queried == order[..|a.queried|]
    ensures a.choice.Selected? ==>
              |a.queried| > 0 && a.choice.source == a.queried[|a.queried| - 1]
              && Pick(cat, a.choice.source, year, w) == Some(a.choice.cand)
    ensures a.choice.NoCoverage? ==> a.queried == order
    ensures forall i :: 0 <= i < |a.queried| && (a.choice.NoCoverage? || i < |a.queried| - 1) ==>
              Pick(cat, a.queried[i], year, w).None?
  {
    if |order| == 0 then Attempt(NoCoverage, [])
    else
      match Pick(cat, order[0], year, w)
      case Some(c) => Attempt(Selected(order[0], c), [order[0]])
      case None =>
        var rest := TryInOrder(cat, year, order[1..], w);
        assert order == [order[0]] + order[1..];
        Attempt(rest.choice, [order[0]] + rest.queried)
  }

  /** The selection for one year: the sources of `Priority(year)` tried in turn. */
  function SelectYear(cat: Catalog, year: int, w: Window): (a: Attempt)
    ensures a.choice.Selected? ==> a.choice.source in Priority(year) && Pick(cat, a.choice.source, year, w) == Some(a.choice.cand)
    ensures a.choice.NoCoverage? ==> a.queried == Priority(year)
    ensures forall src :: src in a.queried && (a.choice.NoCoverage? || src != a.queried[|a.queried| - 1]) ==>
              Pick(cat, src, year, w).None?
  {
    var order := Priority(year);
    var a := TryInOrder(cat, year, order, w);
    assert a.choice.Selected? ==> a.queried[|a.queried| - 1] == order[|a.queried| - 1];
    assert |order| <= 2 && order[0] != order[|order| - 1] ==> |order| == 2;
    a
  }

  /** The branches of `main` as written: Sentinel-2 from 2015 on, then Landsat 8 if nothing was found. */
  function SelectAsBranches(cat: Catalog, year: int, w: Window): (ch: Choice)
    ensures ch.Selected? ==> Pick(cat, ch.source, year, w) == Some(ch.cand)
    ensures ch.Selected? && ch.source == Sentinel2 ==> year >= SENTINEL2_FROM
    ensures ch.Selected? && ch.source == Landsat8 ==> year < SENTINEL2_FROM || Pick(cat, Sentinel2, year, w).None?
    ensures ch.NoCoverage? <==>
              (year >= SENTINEL2_FROM ==> Pick(cat, Sentinel2, year, w).None?) && Pick(cat, Landsat8, year, w).None?
  {
    var s2 := if year >= SENTINEL2_FROM then Pick(cat, Sentinel2, year, w) else None;
    if s2.Some? then Selected(Sentinel2, s2.value)
    else
      var l8 := Pick(cat, Landsat8, year, w);
      if l8.Some? then Selected(Landsat8, l8.value) else NoCoverage
  }

  /** The ordered try-list chooses exactly what the branches of `main` choose, for either window. */
  lemma SelectYearIsBranches(cat: Catalog, year: int, w: Window)
    ensures SelectYear(cat, year, w).choice == SelectAsBranches(cat, year, w)
  {
    var order := Priority(year);
    if year >= SENTINEL2_FROM && Pick(cat, Sentinel2, year, w).None? {
      assert order[1..] == [Landsat8];
    }
  }

  /** Before 2015 Sentinel-2 is never queried, so only Landsat 8 can be chosen. */
  lemma EarlyYearsLandsatOnly(cat: Catalog, year: int, w: Window)
    requires year < SENTINEL2_FROM
    ensures Sentinel2 !in SelectYear(cat, year, w).queried
    ensures SelectYear(cat, year, w).choice.Selected? ==> SelectYear(cat, year, w).choice.source == Landsat8
  {
    var a := TryInOrder(cat, year, [Landsat8], w);
    assert a.queried == [Landsat8][..|a.queried|];
    assert a.queried == [] || a.queried == [Landsat8];
  }

  /** From 2015 on, when Sentinel-2 has an image, it is chosen and Landsat 8 is never queried. */
  lemma SentinelShortCircuit(cat: Catalog, year: int, w: Window)
    requires year >= SENTINEL2_FROM && Pick(cat, Sentinel2, year, w).Some?
    ensures SelectYear(cat, year, w).queried == [Sentinel2]
    ensures SelectYear(cat, year, w).choice == Selected(Sentinel2, Pick(cat, Sentinel2, year, w).value)
  {
  }

  /** A year has no coverage exactly when every source it may use has no image inside the window under the limit. */
  lemma NoCoverageIff(cat: Catalog, year: int, w: Window)
    ensures SelectYear(cat, year, w).choice.NoCoverage? <==>
              forall src :: src in Priority(year) ==> forall c :: c in cat(src) ==> !Qualifies(c, year, w)
  {
    SelectYearIsBranches(cat, year, w);
  }

  /** The chosen image always belongs to the chosen source, lies in the window and the year, and is under the cloud limit. */
  lemma SelectedQualifies(cat: Catalog, year: int, w: Window)
    requires SelectYear(cat, year, w).choice.Selected?
    ensures var ch := SelectYear(cat, year, w).choice;
            ch.cand in cat(ch.source) && InWindow(w, ch.cand.date, year) && ch.cand.date.year == year
            && ch.cand.cloud < CLOUD_LIMIT && ch.source in Priority(year)
  {
  }

  /**
   * A clear image on 31 December changes the year's pick without emptying it:
   * as written the script keeps the cloudier June image, while the
   * calendar-year query keeps the December one.
   */
  lemma LastDayImageDisplaced(cat: Catalog)
    requires cat(Landsat8) == [Candidate("d", Date(2014, 12, 31), 1.0), Candidate("j", Date(2014, 6, 1), 20.0)]
    ensures SelectYear(cat, 2014, AsWritten).choice == Selected(Landsat8, Candidate("j", Date(2014, 6, 1), 20.0))
    ensures SelectYear(cat, 2014, CalendarYear).choice == Selected(Landsat8, Candidate("d", Date(2014, 12, 31), 1.0))
  {
    var d, j := Candidate("d", Date(2014, 12, 31), 1.0), Candidate("j", Date(2014, 6, 1), 20.0);
    assert cat(Landsat8)[1..] == [j] && [j][1..] == [];
    assert Query([j], 2014, AsWritten) == [j] && Query([j], 2014, CalendarYear) == [j];
    assert !Qualifies(d, 2014, AsWritten) && Qualifies(d, 2014, CalendarYear);
    assert Query(cat(Landsat8), 2014, AsWritten) == [j];
    assert Query(cat(Landsat8), 2014, CalendarYear) == [d, j];
  }

  /** The rendering parameters handed to Earth Engine for one source. */
  datatype RenderSpec = RenderSpec(bands: seq<string>, min: int, max: int, gamma: real)

  const S2_VIS: RenderSpec := RenderSpec(["B4", "B3", "B2"], 0, 3000, 1.4)
  const L8_VIS: RenderSpec := RenderSpec(["SR_B4", "SR_B3", "SR_B2"], 7000, 30000, 1.4)

  /** The lookup from source to rendering parameters; every source has an entry. */
  function Vis(src: Source): (r: RenderSpec)
    ensures |r.bands| == 3 && r.min < r.max && r.gamma == 1.4
    ensures src == Sentinel2 ==> r.bands == ["B4", "B3", "B2"] && r.min == 0 && r.max == 3000
    ensures src == Landsat8 ==> r.bands == ["SR_B4", "SR_B3", "SR_B2"] && r.min == 7000 && r.max == 30000
  {
    match src
    case Sentinel2 => S2_VIS
    case Landsat8 => L8_VIS
  }

  /** The `source` label written into the manifest; the two sources get different labels. */
  function Label(src: Source): (r: string)
    ensures r == "Sentinel-2" <==> src == Sentinel2
    ensures r == "Landsat 8" <==> src == Landsat8
  {
    match src
    case Sentinel2 => "Sentinel-2"
    case Landsat8 => "Landsat 8"
  }

  function FilePrefix(src: Source): string
  {
    match src
    case Sentinel2 => "sentinel2_"
    case Landsat8 => "landsat8_"
  }

  /** `sentinel2_{year}.png` or `landsat8_{year}.png`: the source's prefix, the year's digits, then `.png`. */
  function Filename(src: Source, year: nat): (r: string)
    ensures |r| >= |FilePrefix(src)| + 5
    ensures r[..|FilePrefix(src)|] == FilePrefix(src) && r[|r| - 4..] == ".png"
    ensures IsDigits(r[|FilePrefix(src)|..|r| - 4]) && (year >= 10 ==> |r| >= |FilePrefix(src)| + 6)
  {
    FilePrefix(src) + Decimal(year) + ".png"
  }

  /** For the four-digit years of the loop, the name holds the year as four digits. */
  lemma FilenameOfLoopYear(src: Source, year: nat)
    requires 1000 <= year < 10000
    ensures Filename(src, year) == FilePrefix(src) + PadDigits(year, 4) + ".png"
  {
    DecimalIsPadDigits(year);
  }

  /** Different sources or years never share a file name, so no year overwrites another's image. */
  lemma FilenameInjective(s1: Source, y1: nat, s2: Source, y2: nat)
    requires Filename(s1, y1) == Filename(s2, y2)
    ensures s1 == s2 && y1 == y2
  {
    var f1, f2 := Filename(s1, y1), Filename(s2, y2);
    assert f1[0] == FilePrefix(s1)[0] && f2[0] == FilePrefix(s2)[0];
    assert s1 == s2;
    var p := FilePrefix(s1);
    assert f1 == p + (Decimal(y1) + ".png") && f2 == p + (Decimal(y2) + ".png");
    SplitEqual(p, Decimal(y1) + ".png", p, Decimal(y2) + ".png");
    assert |Decimal(y1)| == |Decimal(y2)|;
    SplitEqual(Decimal(y1), ".png", Decimal(y2), ".png");
    DecimalInjective(y1, y2);
  }
}

=== FILE: sentinel2_series.dfy ===
/**
 * The all-dates Sentinel-2 download of the analysis script
 * (`download_sentinel2_images`): at most the first 50 images the collection
 * lists are fetched one by one; a fetch that answers 200 is saved as
 * `sentinel2_YYYYMMDD.png` and recorded, anything else (an exception or
 * another status) is skipped. Unlike the yearly downloader, neither the
 * Content-Type nor the body is examined.
 */
module Sentinel2Series {
  import opened Wrappers
  import opened Strings
  import opened Dates
  import opened Records
  import opened Download

  /**
   * One image of the filtered collection: its `system:time_start` in
   * milliseconds, and the calendar date that instant falls on.
   */
  datatype Shot = Shot(timestampMs: int, date: CalendarDate)

  /** Building the thumbnail URL for a shot and fetching it. */
  type Thumbs = Shot -> Response

  const MAX_SHOTS: nat := 50
  const SERIES_PREFIX: string := "sentinel2_"
  const SERIES_LABEL: string := "Sentinel-2"

  /** The file a shot is saved to: the formatted date with its dashes removed. */
  function SeriesFilename(d: CalendarDate): string
  {
    SERIES_PREFIX + RemoveChar(Format(d), '-') + ".png"
  }

  /** The file name carries the date as eight digits, and distinct dates get distinct files. */
  lemma SeriesFilenameDigits(a: CalendarDate, b: CalendarDate)
    ensures SeriesFilename(a) == SERIES_PREFIX + Compact(a) + ".png"
    ensures SeriesFilename(a) == SeriesFilename(b) <==> a == b
  {
    FormatWithoutDashes(a);
    FormatWithoutDashes(b);
    if SeriesFilename(a) == SeriesFilename(b) {
      var n := |SERIES_PREFIX|;
      assert Compact(a) == SeriesFilename(a)[n..n + 8];
      assert Compact(b) == SeriesFilename(b)[n..n + 8];
      CompactInjective(a, b);
    }
  }

  /** The record kept for a saved shot: its date, its timestamp, its file, and the Sentinel-2 label, nothing else. */
  function SeriesEntry(s: Shot): (e: ImageInfo)
    ensures e.date == Some(Format(s.date)) && e.timestamp == Some(s.timestampMs)
    ensures e.filename == SERIES_PREFIX + Compact(s.date) + ".png" && e.source == SERIES_LABEL
    ensures e.alignedFilename.None? && e.width.None? && e.height.None? && e.zoom.None?
  {
    SeriesFilenameDigits(s.date, s.date);
    ImageInfo(Some(Format(s.date)), Some(s.timestampMs), SeriesFilename(s.date), SERIES_LABEL, None, None, None, None)
  }

  /** A fetch is kept when it raised nothing and answered 200. */
  predicate Saves(resp: Response)
    ensures Accepts(resp) ==> Saves(resp)
  {
    !resp.raises && resp.status == OK_STATUS
  }

  /** A fetch that answers 200 with an HTML page is kept here, though the yearly downloader refuses it. */
  lemma HtmlPageSaved(body: seq<byte>, decodes: bool)
    ensures Saves(Response(200, "text/html", body, decodes, false))
    ensures !Accepts(Response(200, "text/html", body, decodes, false))
  {
    HtmlPageRejected(body, decodes);
  }

  /** The recorded entries and the output directory after the loop. */
  datatype Series = Series(infos: seq<ImageInfo>, files: Files)

  /** The shots whose fetch is kept, in shot order. */
  function SavedShots(shots: seq<Shot>, net: Thumbs): (r: seq<Shot>)
    ensures |r| <= |shots|
    ensures forall s :: s in r <==> s in shots && Saves(net(s))
  {
    if |shots| == 0 then []
    else (if Saves(net(shots[0])) then [shots[0]] else []) + SavedShots(shots[1..], net)
  }

  /** The directory after one shot's fetch: its day's file holds the body when the fetch is kept. */
  function Stored(s: Shot, net: Thumbs, files: Files): (r: Files)
    ensures Saves(net(s)) ==> SeriesFilename(s.date) in r && r[SeriesFilename(s.date)] == net(s).content
    ensures forall f :: f != SeriesFilename(s.date) ==> (f in r <==> f in files) && (f in files ==> r[f] == files[f])
    ensures !Saves(net(s)) ==> r == files
  {
    if Saves(net(s)) then files[SeriesFilename(s.date) := net(s).content] else files
  }

  /**
   * The download loop over the given shots, in order: one entry per saved
   * shot, in shot order, and each saved shot's file written.
   */
  function FetchAll(shots: seq<Shot>, net: Thumbs, files: Files): (r: Series)
    ensures |r.infos| == |SavedShots(shots, net)|
    ensures forall i :: 0 <= i < |r.infos| ==> r.infos[i] == SeriesEntry(SavedShots(shots, net)[i])
    decreases |shots|
  {
    if |shots| == 0 then Series([], files)
    else
      var s := shots[0];
      var rest := FetchAll(shots[1..], net, Stored(s, net, files));
      if Saves(net(s)) then
        assert SavedShots(shots, net) == [s] + SavedShots(shots[1..], net);
        Series([SeriesEntry(s)] + rest.infos, rest.files)
      else
        assert SavedShots(shots, net) == SavedShots(shots[1..], net);
        rest
  }

  /** The directory after fetching the shots in order, one `Stored` per shot. */
  function Written(shots: seq<Shot>, net: Thumbs, files: Files): Files
    decreases |shots|
  {
    if |shots| == 0 then files else Written(shots[1..], net, Stored(shots[0], net, files))
  }

  /** The directory `FetchAll` leaves is the one the shots' fetches write in turn. */
  lemma {:induction false} FetchAllWritten(shots: seq<Shot>, net: Thumbs, files: Files)
    ensures FetchAll(shots, net, files).files == Written(shots, net, files)
    decreases |shots|
  {
    if |shots| > 0 {
      FetchAllWritten(shots[1..], net, Stored(shots[0], net, files));
    }
  }

  /** A shot of the list is its head or a shot of its tail. */
  lemma ShotInTail(shots: seq<Shot>, t: Shot)
    requires t in shots && t != shots[0]
    ensures t in shots[1..]
  {
    var k :| 0 <= k < |shots| && shots[k] == t;
    assert shots[1..][k - 1] == t;
  }

  /**
   * Shot `i` is saved and no later shot of the same day is: its body is the
   * one its day's file ends up holding.
   */
  predicate LastSavedOfDay(shots: seq<Shot>, net: Thumbs, i: int)
  {
    0 <= i < |shots| && Saves(net(shots[i]))
    && forall j :: i < j < |shots| && Saves(net(shots[j])) ==> shots[j].date != shots[i].date
  }

  /** Being the last saved shot of its day carries over from the list to its tail. */
  lemma LastSavedOfDayTail(shots: seq<Shot>, net: Thumbs, i: int)
    requires 0 < i && LastSavedOfDay(shots, net, i)
    ensures LastSavedOfDay(shots[1..], net, i - 1) && shots[1..][i - 1] == shots[i]
  {
    forall j | i - 1 < j < |shots[1..]| && Saves(net(shots[1..][j]))
      ensures shots[1..][j].date != shots[1..][i - 1].date
    {
      assert shots[1..][j] == shots[j + 1];
    }
  }

  /** The written files are the earlier ones plus one file per day with a saved shot. */
  lemma {:induction false} WrittenNames(shots: seq<Shot>, net: Thumbs, files: Files)
    ensures forall f :: f in Written(shots, net, files) <==>
              f in files || exists s :: s in shots && Saves(net(s)) && f == SeriesFilename(s.date)
    decreases |shots|
  {
    if |shots| > 0 {
      var s := shots[0];
      WrittenNames(shots[1..], net, Stored(s, net, files));
      forall f
        ensures f in Written(shots, net, files) <==> f in files || exists t :: t in shots && Saves(net(t)) && f == SeriesFilename(t.date)
      {
        if t :| t in shots[1..] && Saves(net(t)) && f == SeriesFilename(t.date) {
          assert t in shots;
        }
        if t :| t in shots && Saves(net(t)) && f == SeriesFilename(t.date) {
          if t != s {
            ShotInTail(shots, t);
          }
        }
      }
    }
  }

  /** A file that no saved shot is named after keeps its contents through the writes. */
  lemma {:induction false} WrittenKeepsOthers(shots: seq<Shot>, net: Thumbs, files: Files, f: string)
    requires f in files && forall s :: s in shots && Saves(net(s)) ==> f != SeriesFilename(s.date)
    ensures f in Written(shots, net, files) && Written(shots, net, files)[f] == files[f]
    decreases |shots|
  {
    if |shots| > 0 {
      forall t | t in shots[1..] && Saves(net(t))
        ensures f != SeriesFilename(t.date)
      {
        assert t in shots;
      }
      WrittenKeepsOthers(shots[1..], net, Stored(shots[0], net, files), f);
    }
  }

  /** A saved head shot with no later saved shot of its day leaves its body in its file. */
  lemma WrittenHead(shots: seq<Shot>, net: Thumbs, files: Files)
    requires LastSavedOfDay(shots, net, 0)
    ensures SeriesFilename(shots[0].date) in Written(shots, net, files)
    ensures Written(shots, net, files)[SeriesFilename(shots[0].date)] == net(shots[0]).content
  {
    var s, tail := shots[0], shots[1..];
    var f := SeriesFilename(s.date);
    forall t | t in tail && Saves(net(t))
      ensures f != SeriesFilename(t.date)
    {
      var j :| 0 <= j < |tail| && tail[j] == t;
      assert shots[j + 1] == t;
      SeriesFilenameDigits(s.date, t.date);
    }
    WrittenKeepsOthers(tail, net, Stored(s, net, files), f);
  }

  /** The last saved shot of a day leaves its response body in that day's file. */
  lemma {:induction false} WrittenLastWrite(shots: seq<Shot>, net: Thumbs, files: Files, i: int)
    requires LastSavedOfDay(shots, net, i)
    ensures SeriesFilename(shots[i].date) in Written(shots, net, files)
    ensures Written(shots, net, files)[SeriesFilename(shots[i].date)] == net(shots[i]).content
    decreases |shots|
  {
    if i == 0 {
      WrittenHead(shots, net, files);
    } else {
      LastSavedOfDayTail(shots, net, i);
      WrittenLastWrite(shots[1..], net, Stored(shots[0], net, files), i - 1);
    }
  }

  /** A file that no saved shot is named after keeps its contents. */
  lemma FetchAllKeepsOthers(shots: seq<Shot>, net: Thumbs, files: Files, f: string)
    requires f in files && forall s :: s in shots && Saves(net(s)) ==> f != SeriesFilename(s.date)
    ensures f in FetchAll(shots, net, files).files && FetchAll(shots, net, files).files[f] == files[f]
  {
    FetchAllWritten(shots, net, files);
    WrittenKeepsOthers(shots, net, files, f);
  }

  /** Every day's file holds the response body of the last saved shot of that day. */
  lemma {:induction false} FetchAllContents(shots: seq<Shot>, net: Thumbs, files: Files)
    ensures forall i :: LastSavedOfDay(shots, net, i) ==>
              SeriesFilename(shots[i].date) in FetchAll(shots, net, files).files
              && FetchAll(shots, net, files).files[SeriesFilename(shots[i].date)] == net(shots[i]).content
  {
    FetchAllWritten(shots, net, files);
    forall i | LastSavedOfDay(shots, net, i)
      ensures SeriesFilename(shots[i].date) in Written(shots, net, files)
              && Written(shots, net, files)[SeriesFilename(shots[i].date)] == net(shots[i]).content
    {
      WrittenLastWrite(shots, net, files, i);
    }
  }

  /**
   * The files after the loop are the earlier ones plus one file per day with a
   * saved shot; shots of one day share that file, and it holds the body of
   * the day's last saved shot.
   */
  lemma {:induction false} FetchAllFileNames(shots: seq<Shot>, net: Thumbs, files: Files)
    ensures forall i :: LastSavedOfDay(shots, net, i) ==>
              SeriesFilename(shots[i].date) in FetchAll(shots, net, files).files
              && FetchAll(shots, net, files).files[SeriesFilename(shots[i].date)] == net(shots[i]).content
    ensures forall f :: f in FetchAll(shots, net, files).files <==>
              f in files || exists s :: s in shots && Saves(net(s)) && f == SeriesFilename(s.date)
  {
    FetchAllWritten(shots, net, files);
    WrittenNames(shots, net, files);
    FetchAllContents(shots, net, files);
  }

  /** Each saved shot has an entry, and each entry is a saved shot's. */
  lemma FetchAllEntries(shots: seq<Shot>, net: Thumbs, files: Files)
    ensures var r := FetchAll(shots, net, files);
            (forall s :: s in shots && Saves(net(s)) ==> SeriesEntry(s) in r.infos)
            && (forall e :: e in r.infos ==> exists s :: s in shots && Saves(net(s)) && e == SeriesEntry(s))
  {
    var r, saved := FetchAll(shots, net, files), SavedShots(shots, net);
    forall s | s in shots && Saves(net(s))
      ensures SeriesEntry(s) in r.infos
    {
      var i :| 0 <= i < |saved| && saved[i] == s;
      assert r.infos[i] == SeriesEntry(s);
    }
    forall e | e in r.infos
      ensures exists s :: s in shots && Saves(net(s)) && e == SeriesEntry(s)
    {
      var i :| 0 <= i < |r.infos| && r.infos[i] == e;
      assert saved[i] in saved;
    }
  }

  /** The shots the loop visits: the first 50 the collection lists, or all of them when there are fewer. */
  function FirstShots(shots: seq<Shot>): (r: seq<Shot>)
    ensures |r| == if |shots| < MAX_SHOTS then |shots| else MAX_SHOTS
    ensures forall i :: 0 <= i < |r| ==> r[i] == shots[i]
  {
    if |shots| < MAX_SHOTS then shots else shots[..MAX_SHOTS]
  }

  /**
   * `download_sentinel2_images`: the loop over the first 50 shots the
   * collection lists. The entries are those of the saved shots among them, in
   * shot order.
   */
  function DownloadSentinel2(shots: seq<Shot>, net: Thumbs, files: Files): (r: Series)
    ensures |r.infos| <= MAX_SHOTS
    ensures |r.infos| == |SavedShots(FirstShots(shots), net)|
    ensures forall i :: 0 <= i < |r.infos| ==> r.infos[i] == SeriesEntry(SavedShots(FirstShots(shots), net)[i])
    ensures forall i :: 0 <= i < |shots| && i < MAX_SHOTS && Saves(net(shots[i])) ==> SeriesEntry(shots[i]) in r.infos
    ensures forall e :: e in r.infos ==>
              exists i :: 0 <= i < |shots| && i < MAX_SHOTS && Saves(net(shots[i])) && e == SeriesEntry(shots[i])
    ensures forall e :: e in r.infos ==>
              e.source == SERIES_LABEL && e.timestamp.Some? && e.date.Some? && e.filename in r.files
  {
    var first := FirstShots(shots);
    FirstShotsEntries(shots, net, files);
    FirstShotsFiles(first, net, files);
    FetchAll(first, net, files)
  }

  /** The entries of the loop over the first 50 shots are those of the saved shots among them, by index into the full list. */
  lemma FirstShotsEntries(shots: seq<Shot>, net: Thumbs, files: Files)
    ensures var r := FetchAll(FirstShots(shots), net, files);
            (forall i :: 0 <= i < |shots| && i < MAX_SHOTS && Saves(net(shots[i])) ==> SeriesEntry(shots[i]) in r.infos)
            && (forall e :: e in r.infos ==>
                  exists i :: 0 <= i < |shots| && i < MAX_SHOTS && Saves(net(shots[i])) && e == SeriesEntry(shots[i]))
  {
    var first := FirstShots(shots);
    var r := FetchAll(first, net, files);
    FetchAllEntries(first, net, files);
    forall i | 0 <= i < |shots| && i < MAX_SHOTS && Saves(net(shots[i]))
      ensures SeriesEntry(shots[i]) in r.infos
    {
      assert first[i] == shots[i];
    }
    forall e | e in r.infos
      ensures exists i :: 0 <= i < |shots| && i < MAX_SHOTS && Saves(net(shots[i])) && e == SeriesEntry(shots[i])
    {
      var s :| s in first && Saves(net(s)) && e == SeriesEntry(s);
      var i :| 0 <= i < |first| && first[i] == s;
    }
  }

  /** Every entry of the loop names a file it wrote. */
  lemma FirstShotsFiles(shots: seq<Shot>, net: Thumbs, files: Files)
    ensures var r := FetchAll(shots, net, files);
            forall e :: e in r.infos ==> e.filename in r.files
  {
    var r := FetchAll(shots, net, files);
    FetchAllEntries(shots, net, files);
    FetchAllWritten(shots, net, files);
    WrittenNames(shots, net, files);
  }

  /**
   * After `download_sentinel2_images`, each day's file holds the response body
   * of the last shot of that day saved among the first 50.
   */
  lemma {:induction false} DownloadSentinel2Contents(shots: seq<Shot>, net: Thumbs, files: Files)
    ensures forall i :: LastSavedOfDay(FirstShots(shots), net, i) ==>
              SeriesFilename(shots[i].date) in DownloadSentinel2(shots, net, files).files
              && DownloadSentinel2(shots, net, files).files[SeriesFilename(shots[i].date)] == net(shots[i]).content
  {
    var first := FirstShots(shots);
    FetchAllContents(first, net, files);
    forall i | LastSavedOfDay(first, net, i)
      ensures first[i] == shots[i]
    {
    }
  }

  /** Entries for one calendar day share one file: a later shot of that day overwrites an earlier one. */
  lemma SameDaySameFile(s: Shot, t: Shot)
    ensures SeriesEntry(s).filename == SeriesEntry(t).filename <==> s.date == t.date
  {
    SeriesFilenameDigits(s.date, t.date);
  }
}

=== FILE: stable_sort.dfy ===
/**
 * Python's `list.sort(key=...)` as used by the two manifest builders: a stable
 * sort by a key that is either an integer (a millisecond timestamp) or a string
 * (a `YYYY-MM-dd` date). The result is a permutation of the input, ordered by
 * key, in which entries with equal keys keep their input order.
 */
module StableSort {
  import opened Strings

  datatype Key = IntKey(i: int) | StrKey(s: string)

  /**
   * Python's `<=` on keys of one kind. Python raises when asked to compare an
   * `int` key with a `str` key; callers that sort require keys of one kind, and
   * the mixed arms below only make the relation total.
   */
  predicate KeyLe(a: Key, b: Key)
  {
    match (a, b)
    case (IntKey(x), IntKey(y)) => x <= y
    case (StrKey(x), StrKey(y)) => StrLe(x, y)
    case (IntKey(_), StrKey(_)) => true
    case (StrKey(_), IntKey(_)) => false
  }

  lemma KeyLeReflexive(a: Key)
    ensures KeyLe(a, a)
  {
    if a.StrKey? {
      StrLeReflexive(a.s);
    }
  }

  lemma KeyLeTotal(a: Key, b: Key)
    ensures KeyLe(a, b) || KeyLe(b, a)
  {
    if a.StrKey? && b.StrKey? {
      StrLeTotal(a.s, b.s);
    }
  }

  lemma KeyLeTransitive(a: Key, b: Key, c: Key)
    requires KeyLe(a, b) && KeyLe(b, c)
    ensures KeyLe(a, c)
  {
    if a.StrKey? && b.StrKey? && c.StrKey? {
      StrLeTransitive(a.s, b.s, c.s);
    }
  }

  /** Every pair of entries, not only neighbours, is in key order. */
  ghost predicate SortedBy<T>(s: seq<T>, key: T -> Key)
  {
    forall i, j :: 0 <= i < j < |s| ==> KeyLe(key(s[i]), key(s[j]))
  }

  /** The entries of `s` whose key is `k`, in their order in `s`. */
  function WithKey<T>(s: seq<T>, key: T -> Key, k: Key): seq<T>
  {
    if |s| == 0 then []
    else (if key(s[0]) == k then [s[0]] else []) + WithKey(s[1..], key, k)
  }

  /**
   * Inserts `x` into sorted `s` before the first entry whose key is not below
   * `x`'s, so `x` precedes every entry of `s` with an equal key.
   */
  function Insert<T>(x: T, s: seq<T>, key: T -> Key): (r: seq<T>)
    requires SortedBy(s, key)
    ensures SortedBy(r, key)
    ensures multiset(r) == multiset(s) + multiset{x}
    ensures forall k :: WithKey(r, key, k) == (if key(x) == k then [x] else []) + WithKey(s, key, k)
  {
    if |s| == 0 then
      [x]
    else if KeyLe(key(x), key(s[0])) then
      InsertFront(x, s, key);
      [x] + s
    else
      var rest := Insert(x, s[1..], key);
      InsertBehind(x, s, key, rest);
      [s[0]] + rest
  }

  lemma InsertFront<T>(x: T, s: seq<T>, key: T -> Key)
    requires SortedBy(s, key) && |s| > 0 && KeyLe(key(x), key(s[0]))
    ensures SortedBy([x] + s, key)
    ensures forall k :: WithKey([x] + s, key, k) == (if key(x) == k then [x] else []) + WithKey(s, key, k)
  {
    forall j | 0 < j < |s| + 1
      ensures KeyLe(key(x), key(([x] + s)[j]))
    {
      if j > 1 {
        KeyLeTransitive(key(x), key(s[0]), key(s[j - 1]));
      }
    }
    assert ([x] + s)[1..] == s;
  }

  lemma InsertBehind<T>(x: T, s: seq<T>, key: T -> Key, rest: seq<T>)
    requires SortedBy(s, key) && |s| > 0 && !KeyLe(key(x), key(s[0]))
    requires SortedBy(rest, key)
    requires multiset(rest) == multiset(s[1..]) + multiset{x}
    requires forall k :: WithKey(rest, key, k) == (if key(x) == k then [x] else []) + WithKey(s[1..], key, k)
    ensures SortedBy([s[0]] + rest, key)
    ensures multiset([s[0]] + rest) == multiset(s) + multiset{x}
    ensures forall k :: WithKey([s[0]] + rest, key, k) == (if key(x) == k then [x] else []) + WithKey(s, key, k)
  {
    HeadBelowRest(x, s, key, rest);
    assert s == [s[0]] + s[1..];
    forall k
      ensures WithKey([s[0]] + rest, key, k) == (if key(x) == k then [x] else []) + WithKey(s, key, k)
    {
      WithKeyBehind(x, s, key, rest, k);
    }
  }

  lemma HeadBelowRest<T>(x: T, s: seq<T>, key: T -> Key, rest: seq<T>)
    requires SortedBy(s, key) && |s| > 0 && !KeyLe(key(x), key(s[0]))
    requires SortedBy(rest, key)
    requires multiset(rest) == multiset(s[1..]) + multiset{x}
    ensures SortedBy([s[0]] + rest, key)
  {
    KeyLeTotal(key(x), key(s[0]));
    forall j | 0 <= j < |rest|
      ensures KeyLe(key(s[0]), key(rest[j]))
    {
      assert rest[j] in multiset(rest);
      if rest[j] != x {
        assert rest[j] in multiset(s[1..]);
        var i :| 0 <= i < |s[1..]| && s[1..][i] == rest[j];
        assert s[i + 1] == rest[j];
      }
    }
  }

  lemma WithKeyBehind<T>(x: T, s: seq<T>, key: T -> Key, rest: seq<T>, k: Key)
    requires |s| > 0 && !KeyLe(key(x), key(s[0]))
    requires WithKey(rest, key, k) == (if key(x) == k then [x] else []) + WithKey(s[1..], key, k)
    ensures WithKey([s[0]] + rest, key, k) == (if key(x) == k then [x] else []) + WithKey(s, key, k)
  {
    var r := [s[0]] + rest;
    assert r[1..] == rest;
    assert WithKey(r, key, k) == (if key(s[0]) == k then [s[0]] else []) + WithKey(rest, key, k);
    assert WithKey(s, key, k) == (if key(s[0]) == k then [s[0]] else []) + WithKey(s[1..], key, k);
    if key(s[0]) == k {
      KeyLeReflexive(k);
      assert key(x) != k;
    } else {
      assert WithKey(r, key, k) == WithKey(rest, key, k);
      assert WithKey(s, key, k) == WithKey(s[1..], key, k);
    }
  }

  /** Stable insertion sort of `s` by `key`. */
  function SortBy<T>(s: seq<T>, key: T -> Key): (r: seq<T>)
    ensures SortedBy(r, key)
    ensures multiset(r) == multiset(s)
    ensures forall k :: WithKey(r, key, k) == WithKey(s, key, k)
  {
    if |s| == 0 then []
    else
      assert s == [s[0]] + s[1..];
      Insert(s[0], SortBy(s[1..], key), key)
  }

  /** Sorting a sequence that is already in key order changes nothing. */
  lemma {:induction false} SortBySorted<T>(s: seq<T>, key: T -> Key)
    requires SortedBy(s, key)
    ensures SortBy(s, key) == s
  {
    if |s| > 0 {
      assert SortedBy(s[1..], key);
      SortBySorted(s[1..], key);
      assert s == [s[0]] + s[1..];
    }
  }
}

=== FILE: strings.dfy ===
/**
 * Strings as Python sees them in this program: the `<=` order used by `list.sort`
 * on `str` keys, the `in` substring test, `str.replace(c, '')`, and the decimal
 * rendering of non-negative integers (`str(n)` and zero-padded date fields).
 */
module Strings {

  /** Python's `a <= b` on `str`: lexicographic by code point, a proper prefix first. */
  predicate StrLe(a: string, b: string)
    decreases |a|
  {
    |a| == 0 || (|b| > 0 && (a[0] < b[0] || (a[0] == b[0] && StrLe(a[1..], b[1..]))))
  }

  /** Python's `a < b` on `str`. */
  predicate StrLt(a: string, b: string)
  {
    StrLe(a, b) && a != b
  }

  lemma {:induction false} StrLeReflexive(a: string)
    ensures StrLe(a, a)
    decreases |a|
  {
    if |a| > 0 {
      StrLeReflexive(a[1..]);
    }
  }

  lemma {:induction false} StrLeAntisymmetric(a: string, b: string)
    requires StrLe(a, b) && StrLe(b, a)
    ensures a == b
    decreases |a|
  {
    if |a| > 0 {
      StrLeAntisymmetric(a[1..], b[1..]);
      assert a == [a[0]] + a[1..];
      assert b == [b[0]] + b[1..];
    }
  }

  lemma {:induction false} StrLeTransitive(a: string, b: string, c: string)
    requires StrLe(a, b) && StrLe(b, c)
    ensures StrLe(a, c)
    decreases |a|
  {
    if |a| > 0 && a[0] == b[0] && b[0] == c[0] {
      StrLeTransitive(a[1..], b[1..], c[1..]);
    }
  }

  lemma {:induction false} StrLeTotal(a: string, b: string)
    ensures StrLe(a, b) || StrLe(b, a)
    decreases |a|
  {
    if |a| > 0 && |b| > 0 && a[0] == b[0] {
      StrLeTotal(a[1..], b[1..]);
    }
  }

  /**
   * Comparing two strings that start with prefixes of equal length: the prefixes
   * decide, and only when they are equal do the remainders decide.
   */
  lemma {:induction false} StrLeAppend(p: string, u: string, q: string, v: string)
    requires |p| == |q|
    ensures StrLe(p + u, q + v) <==> StrLt(p, q) || (p == q && StrLe(u, v))
    decreases |p|
  {
    if |p| == 0 {
      assert p + u == u;
      assert q + v == v;
      StrLeReflexive(p);
    } else {
      assert (p + u)[1..] == p[1..] + u;
      assert (q + v)[1..] == q[1..] + v;
      StrLeAppend(p[1..], u, q[1..], v);
      assert p == [p[0]] + p[1..];
      assert q == [q[0]] + q[1..];
      if p[0] == q[0] && p[1..] == q[1..] {
        StrLeReflexive(p);
      }
    }
  }

  /** Concatenations with prefixes of equal length are equal iff both parts are. */
  lemma SplitEqual(p: string, u: string, q: string, v: string)
    requires |p| == |q|
    ensures p + u == q + v <==> p == q && u == v
  {
    if p + u == q + v {
      assert p == (p + u)[..|p|] && q == (q + v)[..|q|];
      assert u == (p + u)[|p|..] && v == (q + v)[|q|..];
    }
  }

  /** `t` occurs in `s` at position `i`. */
  ghost predicate OccursAt(t: string, s: string, i: int)
  {
    0 <= i && i + |t| <= |s| && s[i..i + |t|] == t
  }

  /** Python's `t in s` for strings. */
  function Contains(s: string, t: string): (r: bool)
    ensures r <==> exists i :: OccursAt(t, s, i)
    decreases |s|
  {
    if |t| > |s| then false
    else if s[..|t|] == t then assert OccursAt(t, s, 0); true
    else ContainsShift(s, t); Contains(s[1..], t)
  }

  /** An occurrence not at the front of `s` is an occurrence in `s[1..]`, and back. */
  lemma ContainsShift(s: string, t: string)
    requires |t| <= |s| && s[..|t|] != t
    ensures (exists i :: OccursAt(t, s, i)) <==> (exists j :: OccursAt(t, s[1..], j))
  {
    forall i | OccursAt(t, s, i)
      ensures OccursAt(t, s[1..], i - 1)
    {
      assert i != 0;
      assert s[1..][i - 1..i - 1 + |t|] == s[i..i + |t|];
    }
    forall j | OccursAt(t, s[1..], j)
      ensures OccursAt(t, s, j + 1)
    {
      assert s[1..][j..j + |t|] == s[j + 1..j + 1 + |t|];
    }
  }

  /** A string lacking the first character of `t` does not contain `t`. */
  lemma NotContainsWithoutHead(s: string, t: string)
    requires |t| > 0 && t[0] !in s
    ensures !Contains(s, t)
  {
  }

  /** Python's `s.replace(c, '')` for a one-character `c`. */
  function RemoveChar(s: string, c: char): (r: string)
    ensures c !in r
    ensures forall x :: x != c ==> (x in r <==> x in s)
  {
    if |s| == 0 then []
    else if s[0] == c then RemoveChar(s[1..], c)
    else [s[0]] + RemoveChar(s[1..], c)
  }

  lemma {:induction false} RemoveCharAppend(a: string, b: string, c: char)
    ensures RemoveChar(a + b, c) == RemoveChar(a, c) + RemoveChar(b, c)
    decreases |a|
  {
    if |a| == 0 {
      assert a + b == b;
    } else {
      assert (a + b)[1..] == a[1..] + b;
      RemoveCharAppend(a[1..], b, c);
    }
  }

  lemma {:induction false} RemoveCharAbsent(s: string, c: char)
    requires c !in s
    ensures RemoveChar(s, c) == s
    decreases |s|
  {
    if |s| > 0 {
      RemoveCharAbsent(s[1..], c);
      assert s == [s[0]] + s[1..];
    }
  }

  function Pow10(n: nat): (r: nat)
    ensures r >= 1
  {
    if n == 0 then 1 else 10 * Pow10(n - 1)
  }

  /** The decimal digit character for `0 <= n < 10`. */
  function Digit(n: nat): (c: char)
    requires n < 10
    ensures '0' <= c <= '9'
  {
    ('0' as int + n) as char
  }

  predicate IsDigits(s: string)
  {
    forall i :: 0 <= i < |s| ==> '0' <= s[i] <= '9'
  }

  /** `n` written with exactly `width` decimal digits, zero-padded on the left. */
  function PadDigits(n: nat, width: nat): (r: string)
    requires n < Pow10(width)
    ensures |r| == width && IsDigits(r)
  {
    if width == 0 then []
    else PadDigits(n / 10, width - 1) + [Digit(n % 10)]
  }

  /** Python's `str(n)` for a non-negative integer. */
  function Decimal(n: nat): (r: string)
    ensures |r| >= 1 && IsDigits(r)
    ensures n >= 10 ==> |r| >= 2
  {
    if n < 10 then [Digit(n)]
    else Decimal(n / 10) + [Digit(n % 10)]
  }

  /** For a four-digit number, `str(n)` is its zero-padded four-digit numeral. */
  lemma DecimalIsPadDigits(n: nat)
    requires 1000 <= n < 10000
    ensures Decimal(n) == PadDigits(n, 4)
  {
    assert n / 10 / 10 == n / 100 && n / 100 / 10 == n / 1000 && 1 <= n / 1000 < 10;
    assert Decimal(n / 1000) == PadDigits(n / 1000, 1);
    assert Decimal(n / 100) == PadDigits(n / 100, 2);
    assert Decimal(n / 10) == PadDigits(n / 10, 3);
  }

  lemma DigitInjective(a: nat, b: nat)
    requires a < 10 && b < 10
    ensures Digit(a) <= Digit(b) <==> a <= b
    ensures Digit(a) == Digit(b) <==> a == b
  {
  }

  /** `str` is one-to-one on non-negative integers. */
  lemma {:induction false} DecimalInjective(a: nat, b: nat)
    requires Decimal(a) == Decimal(b)
    ensures a == b
    decreases a
  {
    if a >= 10 && b >= 10 {
      var da, db := Decimal(a), Decimal(b);
      assert da[..|da| - 1] == Decimal(a / 10);
      assert db[..|db| - 1] == Decimal(b / 10);
      DecimalInjective(a / 10, b / 10);
      DigitInjective(a % 10, b % 10);
    } else if a < 10 && b < 10 {
      DigitInjective(a, b);
    }
  }

  /** Zero-padded fixed-width numerals sort as strings exactly as their values do. */
  lemma {:induction false} PadDigitsOrder(a: nat, b: nat, width: nat)
    requires a < Pow10(width) && b < Pow10(width)
    ensures StrLe(PadDigits(a, width), PadDigits(b, width)) <==> a <= b
    ensures PadDigits(a, width) == PadDigits(b, width) <==> a == b
  {
    if width == 0 {
      StrLeReflexive([]);
    } else {
      PadDigitsOrder(a / 10, b / 10, width - 1);
      DigitInjective(a % 10, b % 10);
      var pa, pb := PadDigits(a / 10, width - 1), PadDigits(b / 10, width - 1);
      StrLeAppend(pa, [Digit(a % 10)], pb, [Digit(b % 10)]);
      assert PadDigits(a, width) == PadDigits(b, width) ==> pa == pb && Digit(a % 10) == Digit(b % 10) by {
        if PadDigits(a, width) == PadDigits(b, width) {
          assert PadDigits(a, width)[..width - 1] == pa;
          assert PadDigits(b, width)[..width - 1] == pb;
          assert PadDigits(a, width)[width - 1] == Digit(a % 10);
        }
      }
    }
  }
}

=== FILE: time_series.dfy ===
/**
 * The yearly time-series downloader (`main` of the yearly script): for each
 * year from 2013 to 2024, choose an image, download it, and either record a
 * manifest entry or record the year as failed; then write the manifest when at
 * least one image was kept.
 */
module TimeSeries {
  import opened Wrappers
  import opened Strings
  import opened Dates
  import opened StableSort
  import opened Records
  import opened Download
  import opened Selection
  import opened Manifest

  const START_YEAR: nat := 2013
  const END_YEAR: nat := 2024

  /** Side length of every downloaded thumbnail, in pixels. */
  const IMAGE_PX: int := 1024

  /** The thumbnail service: the response to a request for one image rendered with the given parameters. */
  type Network = (Candidate, RenderSpec) -> Response

  datatype SkipReason = NoImagery | DownloadFailed(why: Rejection)

  /**
   * What one iteration of the year loop produced: the entry, the bytes written
   * and the chosen image, or a failed year.
   */
  datatype YearOutcome = Kept(info: ImageInfo, content: seq<byte>, cand: Candidate) | Skipped(reason: SkipReason)

  /** The outcome of every year's iteration. */
  type Outcomes = nat -> YearOutcome

  /** The manifest entry for a downloaded image; it is already 1024 by 1024, so it is its own aligned file. */
  function Entry(src: Source, cand: Candidate, year: nat): (e: ImageInfo)
    ensures e.date == Some(Format(cand.date)) && e.timestamp.None? && e.zoom.None?
    ensures e.filename == Filename(src, year) && e.alignedFilename == Some(e.filename) && e.source == Label(src)
    ensures e.width == Some(IMAGE_PX) && e.height == Some(IMAGE_PX)
  {
    var name := Filename(src, year);
    ImageInfo(Some(Format(cand.date)), None, name, Label(src), Some(name), Some(IMAGE_PX), Some(IMAGE_PX), None)
  }

  /**
   * One iteration of the year loop, with the date window the queries use: no
   * imagery, a refused download, or an entry for the downloaded image.
   */
  function ProcessYear(cat: Catalog, net: Network, year: nat, w: Window): (r: YearOutcome)
    ensures SelectYear(cat, year, w).choice.NoCoverage? <==> r == Skipped(NoImagery)
    ensures var ch := SelectYear(cat, year, w).choice;
            r.Kept? <==> ch.Selected? && Accepts(net(ch.cand, Vis(ch.source)))
    ensures var ch := SelectYear(cat, year, w).choice;
            r.Skipped? && ch.Selected? ==> r.reason == DownloadFailed(Check(net(ch.cand, Vis(ch.source))).why)
  {
    match SelectYear(cat, year, w).choice
    case NoCoverage => Skipped(NoImagery)
    case Selected(src, cand) =>
      var resp := net(cand, Vis(src));
      match Check(resp)
      case Accepted => Kept(Entry(src, cand, year), resp.content, cand)
      case Rejected(why) => Skipped(DownloadFailed(why))
  }

  /**
   * A year is kept exactly when a source yields an image and its download is
   * accepted; the entry then names the chosen source, the year's file, the
   * image's date in that year, and the fixed 1024-pixel geometry.
   */
  lemma ProcessYearOutcome(cat: Catalog, net: Network, year: nat, w: Window)
    ensures var r := ProcessYear(cat, net, year, w);
            SelectYear(cat, year, w).choice.NoCoverage? <==> r == Skipped(NoImagery)
    ensures var r, ch := ProcessYear(cat, net, year, w), SelectYear(cat, year, w).choice;
            r.Kept? <==> ch.Selected? && Accepts(net(ch.cand, Vis(ch.source)))
    ensures var r, ch := ProcessYear(cat, net, year, w), SelectYear(cat, year, w).choice;
            r.Kept? ==> r.info.date == Some(Format(ch.cand.date)) && ch.cand.date.year == year
                        && InWindow(w, ch.cand.date, year)
                        && r.info.filename == Filename(ch.source, year) && r.info.source == Label(ch.source)
                        && r.content == net(ch.cand, Vis(ch.source)).content && r.cand == ch.cand
    ensures var r := ProcessYear(cat, net, year, w);
            r.Kept? ==> r.info.alignedFilename == Some(r.info.filename)
                        && r.info.width == Some(IMAGE_PX) && r.info.height == Some(IMAGE_PX)
                        && r.info.timestamp.None?
  {
    if SelectYear(cat, year, w).choice.Selected? {
      SelectedQualifies(cat, year, w);
    }
  }

  /**
   * A clear image on 31 December only: the script as written reports the year
   * as failed for lack of imagery, while with the calendar-year window the
   * year is kept whenever the download is accepted.
   */
  lemma LastDayYearLost(cat: Catalog, net: Network)
    requires cat(Landsat8) == [Candidate("x", Date(2014, 12, 31), 5.0)]
    requires Accepts(net(Candidate("x", Date(2014, 12, 31), 5.0), L8_VIS))
    ensures ProcessYear(cat, net, 2014, AsWritten) == Skipped(NoImagery)
    ensures ProcessYear(cat, net, 2014, CalendarYear).Kept?
  {
    var x := Candidate("x", Date(2014, 12, 31), 5.0);
    assert [x][1..] == [];
    assert Qualifies(x, 2014, CalendarYear) && !Qualifies(x, 2014, AsWritten);
  }

  ghost predicate Ascending(ys: seq<nat>)
  {
    forall i, j :: 0 <= i < j < |ys| ==> ys[i] < ys[j]
  }

  /** The years in `[lo, hi)` whose iteration kept an image, in loop order. */
  function KeptYears(outcome: Outcomes, lo: nat, hi: nat): seq<nat>
    decreases hi
  {
    if hi <= lo then []
    else KeptYears(outcome, lo, hi - 1) + (if outcome(hi - 1).Kept? then [hi - 1] else [])
  }

  /** `images_info` after the iterations for `[lo, hi)`. */
  function KeptInfos(outcome: Outcomes, lo: nat, hi: nat): seq<ImageInfo>
    decreases hi
  {
    if hi <= lo then []
    else
      var r := outcome(hi - 1);
      KeptInfos(outcome, lo, hi - 1) + (if r.Kept? then [r.info] else [])
  }

  /** `failed_years` after the iterations for `[lo, hi)`. */
  function SkippedYears(outcome: Outcomes, lo: nat, hi: nat): seq<nat>
    decreases hi
  {
    if hi <= lo then []
    else SkippedYears(outcome, lo, hi - 1) + (if outcome(hi - 1).Skipped? then [hi - 1] else [])
  }

  /** The output directory after the iterations for `[lo, hi)`. */
  function WrittenFiles(outcome: Outcomes, files0: Files, lo: nat, hi: nat): Files
    decreases hi
  {
    if hi <= lo then files0
    else
      var files := WrittenFiles(outcome, files0, lo, hi - 1);
      match outcome(hi - 1)
      case Kept(info, content, _) => files[info.filename := content]
      case Skipped(_) => files
  }

  lemma {:induction false} KeptYearsMembers(outcome: Outcomes, lo: nat, hi: nat)
    ensures forall y :: y in KeptYears(outcome, lo, hi) <==> lo <= y < hi && outcome(y).Kept?
    decreases hi
  {
    if hi > lo {
      KeptYearsMembers(outcome, lo, hi - 1);
    }
  }

  lemma {:induction false} KeptYearsAscending(outcome: Outcomes, lo: nat, hi: nat)
    ensures Ascending(KeptYears(outcome, lo, hi))
    decreases hi
  {
    if hi > lo {
      KeptYearsAscending(outcome, lo, hi - 1);
      KeptYearsMembers(outcome, lo, hi - 1);
      var prev, ys := KeptYears(outcome, lo, hi - 1), KeptYears(outcome, lo, hi);
      if outcome(hi - 1).Kept? {
        assert ys == prev + [hi - 1];
      } else {
        assert ys == prev;
      }
      forall i, j | 0 <= i < j < |ys|
        ensures ys[i] < ys[j]
      {
        if j >= |prev| {
          assert ys[i] == prev[i] && prev[i] in prev;
          assert prev[i] < hi - 1;
          assert ys[j] == hi - 1;
          assert ys[i] < ys[j];
        } else {
          assert ys[i] == prev[i] && ys[j] == prev[j];
          assert ys[i] < ys[j];
        }
      }
    }
  }

  /** The i-th entry of `images_info` is the entry of the i-th kept year. */
  lemma {:induction false} KeptInfosOfYears(outcome: Outcomes, lo: nat, hi: nat)
    ensures |KeptInfos(outcome, lo, hi)| == |KeptYears(outcome, lo, hi)|
    ensures forall i :: 0 <= i < |KeptYears(outcome, lo, hi)| ==>
              outcome(KeptYears(outcome, lo, hi)[i]).Kept?
              && KeptInfos(outcome, lo, hi)[i] == outcome(KeptYears(outcome, lo, hi)[i]).info
    decreases hi
  {
    if hi > lo {
      KeptInfosOfYears(outcome, lo, hi - 1);
    }
  }

  lemma {:induction false} SkippedYearsMembers(outcome: Outcomes, lo: nat, hi: nat)
    ensures forall y :: y in SkippedYears(outcome, lo, hi) <==> lo <= y < hi && outcome(y).Skipped?
    decreases hi
  {
    if hi > lo {
      SkippedYearsMembers(outcome, lo, hi - 1);
    }
  }

  lemma {:induction false} SkippedYearsAscending(outcome: Outcomes, lo: nat, hi: nat)
    ensures Ascending(SkippedYears(outcome, lo, hi))
    decreases hi
  {
    if hi > lo {
      SkippedYearsAscending(outcome, lo, hi - 1);
      SkippedYearsMembers(outcome, lo, hi - 1);
      var prev, ys := SkippedYears(outcome, lo, hi - 1), SkippedYears(outcome, lo, hi);
      if outcome(hi - 1).Skipped? {
        assert ys == prev + [hi - 1];
      } else {
        assert ys == prev;
      }
      forall i, j | 0 <= i < j < |ys|
        ensures ys[i] < ys[j]
      {
        if j >= |prev| {
          assert ys[i] == prev[i] && prev[i] in prev;
        }
      }
    }
  }

  /** Each iteration adds one entry or one failed year, never both and never neither. */
  lemma {:induction false} KeptPlusSkipped(outcome: Outcomes, lo: nat, hi: nat)
    requires lo <= hi
    ensures |KeptInfos(outcome, lo, hi)| + |SkippedYears(outcome, lo, hi)| == hi - lo
    decreases hi
  {
    if hi > lo {
      KeptPlusSkipped(outcome, lo, hi - 1);
    }
  }

  /** Earlier files survive; every kept entry's file exists; every new file belongs to a kept entry. */
  lemma {:induction false} WrittenFilesFacts(outcome: Outcomes, files0: Files, lo: nat, hi: nat)
    ensures forall f :: f in files0 ==> f in WrittenFiles(outcome, files0, lo, hi)
    ensures forall i :: 0 <= i < |KeptInfos(outcome, lo, hi)| ==>
              KeptInfos(outcome, lo, hi)[i].filename in WrittenFiles(outcome, files0, lo, hi)
    ensures forall f :: f in WrittenFiles(outcome, files0, lo, hi) && f !in files0 ==>
              exists i :: 0 <= i < |KeptInfos(outcome, lo, hi)| && KeptInfos(outcome, lo, hi)[i].filename == f
    decreases hi
  {
    if hi > lo {
      WrittenFilesFacts(outcome, files0, lo, hi - 1);
      var infos, prev := KeptInfos(outcome, lo, hi), KeptInfos(outcome, lo, hi - 1);
      var files, before := WrittenFiles(outcome, files0, lo, hi), WrittenFiles(outcome, files0, lo, hi - 1);
      match outcome(hi - 1)
      case Kept(info, content, _) =>
        assert infos == prev + [info] && files == before[info.filename := content];
        forall i | 0 <= i < |infos|
          ensures infos[i].filename in files
        {
          if i < |prev| {
            assert infos[i] == prev[i] && prev[i].filename in before;
          }
        }
        forall f | f in files && f !in files0
          ensures exists i :: 0 <= i < |infos| && infos[i].filename == f
        {
          if f == info.filename {
            assert infos[|prev|].filename == f;
          } else {
            var i :| 0 <= i < |prev| && prev[i].filename == f;
            assert infos[i].filename == f;
          }
        }
      case Skipped(_) =>
        assert infos == prev && files == before;
    }
  }

  /** Every kept year's entry carries the date of an image taken in that year. */
  ghost predicate DatedInTheirYear(outcome: Outcomes)
  {
    forall y :: outcome(y).Kept? ==> outcome(y).cand.date.year == y && outcome(y).info.date == Some(Format(outcome(y).cand.date))
  }

  /** Entries come out of the loop with strictly increasing dates, so sorting them by date changes nothing. */
  lemma KeptInfosChronological(outcome: Outcomes, lo: nat, hi: nat)
    requires DatedInTheirYear(outcome)
    ensures AllDated(KeptInfos(outcome, lo, hi))
    ensures forall i, j :: 0 <= i < j < |KeptInfos(outcome, lo, hi)| ==>
              StrLt(KeptInfos(outcome, lo, hi)[i].date.value, KeptInfos(outcome, lo, hi)[j].date.value)
    ensures SortBy(KeptInfos(outcome, lo, hi), DateKey) == KeptInfos(outcome, lo, hi)
  {
    KeptYearsAscending(outcome, lo, hi);
    KeptInfosOfYears(outcome, lo, hi);
    var ys, infos := KeptYears(outcome, lo, hi), KeptInfos(outcome, lo, hi);
    forall i, j | 0 <= i < j < |infos|
      ensures StrLt(infos[i].date.value, infos[j].date.value)
    {
      FormatOrder(outcome(ys[i]).cand.date, outcome(ys[j]).cand.date);
    }
    assert SortedBy(infos, DateKey);
    SortBySorted(infos, DateKey);
  }

  /** Every kept entry has the fixed 1024-pixel geometry and is its own aligned file. */
  ghost predicate FixedGeometry(outcome: Outcomes)
  {
    forall y :: outcome(y).Kept? ==>
      outcome(y).info.alignedFilename == Some(outcome(y).info.filename)
      && outcome(y).info.width == Some(IMAGE_PX) && outcome(y).info.height == Some(IMAGE_PX)
  }

  lemma KeptInfosGeometry(outcome: Outcomes, lo: nat, hi: nat)
    requires FixedGeometry(outcome)
    ensures forall i :: 0 <= i < |KeptInfos(outcome, lo, hi)| ==>
              KeptInfos(outcome, lo, hi)[i].alignedFilename == Some(KeptInfos(outcome, lo, hi)[i].filename)
              && KeptInfos(outcome, lo, hi)[i].width == Some(IMAGE_PX) && KeptInfos(outcome, lo, hi)[i].height == Some(IMAGE_PX)
  {
    KeptInfosOfYears(outcome, lo, hi);
  }

  /** The outcome of every year's iteration against this catalog and thumbnail service. */
  function YearOutcomes(cat: Catalog, net: Network, w: Window): Outcomes
  {
    (y: nat) => ProcessYear(cat, net, y, w)
  }

  lemma YearOutcomesWellFormed(cat: Catalog, net: Network, w: Window)
    ensures DatedInTheirYear(YearOutcomes(cat, net, w)) && FixedGeometry(YearOutcomes(cat, net, w))
  {
    forall y: nat
      ensures var r := YearOutcomes(cat, net, w)(y);
              r.Kept? ==> r.cand.date.year == y && r.info.date == Some(Format(r.cand.date))
                          && r.info.alignedFilename == Some(r.info.filename)
                          && r.info.width == Some(IMAGE_PX) && r.info.height == Some(IMAGE_PX)
    {
      ProcessYearOutcome(cat, net, y, w);
    }
  }

  /**
   * The loop's write for one year is what `download_image` does for that
   * year's chosen image and file name: the file is written exactly on
   * acceptance, and nothing is written when no image was chosen.
   */
  lemma YearWriteIsDownload(cat: Catalog, net: Network, w: Window, files: Files, year: nat)
    ensures var ch := SelectYear(cat, year, w).choice;
            WrittenFiles(YearOutcomes(cat, net, w), files, year, year + 1)
            == if ch.Selected? then DownloadImage(net(ch.cand, Vis(ch.source)), Filename(ch.source, year), files).files
               else files
    ensures var ch := SelectYear(cat, year, w).choice;
            YearOutcomes(cat, net, w)(year).Kept?
            <==> ch.Selected? && DownloadImage(net(ch.cand, Vis(ch.source)), Filename(ch.source, year), files).ok
  {
    var outcome := YearOutcomes(cat, net, w);
    assert WrittenFiles(outcome, files, year, year) == files;
  }

  /**
   * The year loop of `main`: runs every year's iteration in order, appending to
   * `images` or to `failed`, and writing kept images into the directory.
   */
  method CollectYears(outcome: Outcomes, files0: Files, lo: nat, hi: nat)
    returns (images: seq<ImageInfo>, failed: seq<nat>, files: Files)
    requires lo <= hi
    ensures images == KeptInfos(outcome, lo, hi)
    ensures failed == SkippedYears(outcome, lo, hi)
    ensures files == WrittenFiles(outcome, files0, lo, hi)
  {
    images, failed, files := [], [], files0;
    var year := lo;
    while year < hi
      invariant lo <= year <= hi
      invariant images == KeptInfos(outcome, lo, year)
      invariant failed == SkippedYears(outcome, lo, year)
      invariant files == WrittenFiles(outcome, files0, lo, year)
    {
      var r := outcome(year);
      if r.Kept? {
        images := images + [r.info];
        files := files[r.info.filename := r.content];
      } else {
        failed := failed + [year];
      }
      year := year + 1;
    }
  }

  /** Every kept year's entry is in `images_info`, and every entry there is some kept year's entry. */
  lemma KeptInfosExactly(outcome: Outcomes, lo: nat, hi: nat)
    ensures forall y :: lo <= y < hi && outcome(y).Kept? ==> outcome(y).info in KeptInfos(outcome, lo, hi)
    ensures forall i :: 0 <= i < |KeptInfos(outcome, lo, hi)| ==>
              exists y :: lo <= y < hi && outcome(y).Kept? && outcome(y).info == KeptInfos(outcome, lo, hi)[i]
  {
    KeptInfosOfYears(outcome, lo, hi);
    KeptYearsMembers(outcome, lo, hi);
    var ys, infos := KeptYears(outcome, lo, hi), KeptInfos(outcome, lo, hi);
    forall y | lo <= y < hi && outcome(y).Kept?
      ensures outcome(y).info in infos
    {
      var i :| 0 <= i < |ys| && ys[i] == y;
      assert infos[i] == outcome(y).info;
    }
    forall i | 0 <= i < |infos|
      ensures exists y :: lo <= y < hi && outcome(y).Kept? && outcome(y).info == infos[i]
    {
      var y := ys[i];
      assert y in ys;
      assert lo <= y < hi && outcome(y).Kept? && outcome(y).info == infos[i];
    }
  }

  /** Every entry of `images_info` names a file the loop wrote. */
  lemma KeptFilesWritten(outcome: Outcomes, files0: Files, lo: nat, hi: nat)
    ensures forall i :: 0 <= i < |KeptInfos(outcome, lo, hi)| ==>
              KeptInfos(outcome, lo, hi)[i].filename in WrittenFiles(outcome, files0, lo, hi)
  {
    WrittenFilesFacts(outcome, files0, lo, hi);
  }

  /**
   * The year loop of the download script over the years `[lo, hi)` and any
   * per-year outcomes: every year is either kept or skipped, the kept entries
   * come out in calendar order with the fixed geometry, and each names a file
   * that was written.
   */
  method DownloadYears(outcome: Outcomes, files0: Files, lo: nat, hi: nat)
    returns (images: seq<ImageInfo>, failed: seq<nat>, files: Files)
    requires lo <= hi
    requires DatedInTheirYear(outcome) && FixedGeometry(outcome)
    ensures Ascending(failed)
    ensures AllDated(images) && forall i, j :: 0 <= i < j < |images| ==> StrLt(images[i].date.value, images[j].date.value)
    ensures forall y :: y in failed <==> lo <= y < hi && outcome(y).Skipped?
    ensures forall y :: lo <= y < hi && outcome(y).Kept? ==> outcome(y).info in images
    ensures forall i :: 0 <= i < |images| ==>
              exists y :: lo <= y < hi && outcome(y).Kept? && outcome(y).info == images[i]
    ensures |images| + |failed| == hi - lo
    ensures forall i :: 0 <= i < |images| ==>
              images[i].filename in files && images[i].alignedFilename == Some(images[i].filename)
              && images[i].width == Some(IMAGE_PX) && images[i].height == Some(IMAGE_PX)
    ensures SortBy(images, DateKey) == images
  {
    images, failed, files := CollectYears(outcome, files0, lo, hi);
    SkippedYearsMembers(outcome, lo, hi);
    KeptPlusSkipped(outcome, lo, hi);
    SkippedYearsAscending(outcome, lo, hi);
    KeptInfosExactly(outcome, lo, hi);
    KeptInfosChronological(outcome, lo, hi);
    KeptInfosGeometry(outcome, lo, hi);
    KeptFilesWritten(outcome, files0, lo, hi);
  }

  /**
   * The year loop of `main` over 2013..2024 with the date filter as the script
   * writes it: every year is failed or kept according to its iteration, the
   * entries come out in strictly increasing date order, and each names a
   * written file with the fixed geometry.
   */
  method DownloadAllYears(cat: Catalog, net: Network, files0: Files)
    returns (images: seq<ImageInfo>, failed: seq<nat>, files: Files)
    ensures Ascending(failed)
    ensures AllDated(images) && forall i, j :: 0 <= i < j < |images| ==> StrLt(images[i].date.value, images[j].date.value)
    ensures forall y :: y in failed <==> START_YEAR <= y <= END_YEAR && ProcessYear(cat, net, y, AsWritten).Skipped?
    ensures forall y :: START_YEAR <= y <= END_YEAR && ProcessYear(cat, net, y, AsWritten).Kept? ==> ProcessYear(cat, net, y, AsWritten).info in images
    ensures forall i :: 0 <= i < |images| ==>
              exists y :: START_YEAR <= y <= END_YEAR && ProcessYear(cat, net, y, AsWritten).Kept? && ProcessYear(cat, net, y, AsWritten).info == images[i]
    ensures |images| + |failed| == END_YEAR - START_YEAR + 1
    ensures forall i :: 0 <= i < |images| ==>
              images[i].filename in files && images[i].alignedFilename == Some(images[i].filename)
              && images[i].width == Some(IMAGE_PX) && images[i].height == Some(IMAGE_PX)
  {
    var outcome := YearOutcomes(cat, net, AsWritten);
    YearOutcomesWellFormed(cat, net, AsWritten);
    images, failed, files := DownloadYears(outcome, files0, START_YEAR, END_YEAR + 1);
    assert forall y: nat :: outcome(y) == ProcessYear(cat, net, y, AsWritten);
  }

  /**
   * `main` of the yearly script, with Earth Engine, the thumbnail service, the
   * output directory and the clock passed in, and the date filter as the
   * script writes it. Every year of the range ends up either as one manifest
   * entry or in `failed`; the manifest is written exactly when some image was
   * kept, and lists the entries in date order.
   */
  method RunYears(cat: Catalog, net: Network, files0: Files, generated: string)
    returns (images: seq<ImageInfo>, failed: seq<nat>, files: Files, config: Option<ViewerConfig>)
    ensures Ascending(failed)
    ensures AllDated(images) && forall i, j :: 0 <= i < j < |images| ==> StrLt(images[i].date.value, images[j].date.value)
    ensures forall y :: y in failed <==> START_YEAR <= y <= END_YEAR && ProcessYear(cat, net, y, AsWritten).Skipped?
    ensures forall y :: START_YEAR <= y <= END_YEAR && ProcessYear(cat, net, y, AsWritten).Kept? ==> ProcessYear(cat, net, y, AsWritten).info in images
    ensures forall i :: 0 <= i < |images| ==>
              exists y :: START_YEAR <= y <= END_YEAR && ProcessYear(cat, net, y, AsWritten).Kept? && ProcessYear(cat, net, y, AsWritten).info == images[i]
    ensures |images| + |failed| == END_YEAR - START_YEAR + 1
    ensures forall i :: 0 <= i < |images| ==>
              images[i].filename in files && images[i].alignedFilename == Some(images[i].filename)
              && images[i].width == Some(IMAGE_PX) && images[i].height == Some(IMAGE_PX)
    ensures config.Some? <==> |images| > 0
    ensures config.Some? ==> config.value.images == images && config.value.metadata.totalImages == |images|
                             && config.value.metadata.dateRange == DateRange(images[0].date.value, images[|images| - 1].date.value)
  {
    images, failed, files := DownloadAllYears(cat, net, files0);
    if |images| > 0 {
      WriteViewerConfigChronological(images, generated);
      config := Some(WriteViewerConfig(images, generated));
    } else {
      config := None;
    }
  }
}

=== FILE: wrappers.dfy ===
/** Optional values: a Python dictionary key that may be absent, or a lookup that may find nothing. */
module Wrappers {

  datatype Option<+T> = None | Some(value: T) {

    /** The value when present, otherwise `default` (Python's `d.get(key, default)`). */
    function GetOr(default: T): T
    {
      match this
      case Some(v) => v
      case None => default
    }
  }
}
